=== FILE: README.md ===
# 7 Up / 7 Down: a verified model of the game core

This project models the rules of a three-lobby dice game server, "7 Up / 7 Down", in Dafny. It leaves out the socket, cache and ledger plumbing.

- **Lobbies.** Every lobby slot (101, 102, 103) repeats a fixed round forever:
  - a 16-second betting countdown, ticking 15 down to 0 (status 0);
  - a calculating pause (status 1);
  - the result, followed by settlement (status 2);
  - three closing ticks and a history record (status 3).
- **Bets.** Players send `BT:<round id>:<chip>-<amount>,...` messages. A batch of chip wagers is validated against these rules:
  - amount bounds;
  - chip range;
  - forbidden chip combinations;
  - the round check;
  - the balance.
  The ledger then debits the batch, and the bet is stored in the per-round bet book.
- **Settlement.** After the result, every stored bet is paid against the two dice:
  - chip 1 and chip 3 pay 2x;
  - chip 2 pays 5x;
  - each winning wager is capped at the cash-out limit.
  Winners are credited, the cached balances rise, notices go out, and the round's entry in the book is emptied.

## Modules

| file | module | models |
|---|---|---|
| `wrappers.dfy` | `Wrappers` | `Option`, standing for a JavaScript value that may be `undefined` |
| `text.dfy` | `Text` | the string built-ins the code relies on: `split` on one character (`""` splits to `[""]`), indexing past the end (giving `undefined`), `join`, `trim` with its white-space set, and whole-number rendering and parsing |
| `outcome.dfy` | `Outcome` | `getResult`, `getBetResult` and `getUserIP`; the return per 36 dice pairs of each chip |
| `router.dfy` | `Router` | the `message` handler: split on `:`, dispatch on `BT` / `JN` / `LV` |
| `bets.dfy` | `Bets` | `placeBet`: the bet id, validation, debit, bet book and balance; the batch wire format |
| `settlement.dfy` | `Settlement` | `settleBet`: the per-wager tally, records, credits, cached balances, notices and clearing the book |
| `lobby.dfy` | `Lobby` | `initRounds` (the start-up stagger) and `initLobby` (the trace of one round), with `setCurrentLobby` as a trace step |

How the model stands in for things it cannot run:

- **Effects as values.** The dice, the clock (the round's timestamp), the ledger's answers (`DebitReply`), the cached player sessions and the connection handshake are all inputs. Messages, records and credit requests are outputs.
- **JavaScript exceptions.** Two cases throw inside `placeBet` before any state is touched, and the model returns `Aborted` for both:
  - a message field is missing;
  - the round id names no lobby slot and some wager's amount passes the bounds (the round check is reached only then).
  When every amount fails the bounds, the batch is refused as "Invalid Bet type/Amount" instead.
- **Amounts.** Amounts are whole numbers.
- **A round in which 3 and 4 are thrown.** The code labels seven as category 3, so a 10 on chip 2 loses (`Settlement.SevenRoundAsWritten`). Under the labelling where 2 means exact seven, the same wager is paid min(50, cap) (`Settlement.SevenRoundIntended`). See the findings below.

## Model

| member | source | states |
|---|---|---|
| Text.Split | src/router/message-router.ts:15 | `split` on one character always yields at least one field, no field contains the separator, and there is one more field than separators |
| Text.Field | src/router/message-router.ts:16 | indexing a split result is defined exactly when the index is in range, and is otherwise `undefined` |
| Text.SplitJoin | src/module/bets/bets-session.ts:173 | joining separator-free fields with a separator and splitting again recovers exactly those fields |
| Text.JoinSplit | src/module/bets/bets-session.ts:173 | splitting on a separator and joining the fields again gives back the original text |
| Text.Trim | src/utilities/helper-function.ts:23 | `trim` returns a contiguous slice of its input with no white space at either end; everything cut off is white space |
| Text.ParseNatToString | src/module/lobbies/lobby-event.ts:34 | a whole number rendered in decimal parses back to the same number |
| Outcome.DiceComb | src/utilities/helper-function.ts:46 | the `"<d1>-<d2>"` text decodes back to the two faces |
| Outcome.Classify | src/utilities/helper-function.ts:49-57 | the category is 1 exactly below seven, 2 exactly above seven, and 3 exactly on seven |
| Outcome.GetResult | src/utilities/helper-function.ts:42-64 | for two faces in 1..6: the winner is 1 iff the sum is below 7, 2 iff above, 3 iff equal; the winner is always one of 1, 2, 3; the sum is in 2..12; the combination decodes to the faces |
| Outcome.ClassifyIntended | src/utilities/helper-function.ts:51-57 | the corrected labelling: 1 exactly below seven, 2 exactly on seven, 3 exactly above seven |
| Outcome.GetResultIntended | src/utilities/helper-function.ts:42-64 | the corrected result: the winner is 2 iff the sum is seven and 3 iff it is above; the sum and combination are as in `GetResult` |
| Outcome.Multiplier | src/utilities/helper-function.ts:86 | a winning chip is paid 2x exactly when it is chip 1 or chip 3, and 5x otherwise |
| Outcome.GetBetResult | src/utilities/helper-function.ts:75-91 | it echoes the chip and the amount; the status is Win iff the chip is the winner iff the multiplier is positive; a loss has multiplier 0 and win 0; a win has the chip's multiplier and pays the smaller of stake × multiplier and the cash-out cap |
| Outcome.WinnerOfAgrees | src/utilities/helper-function.ts:42-64 | the category used in the 36-pair return table is the `winner` each result function announces |
| Outcome.UnitReturnIsBetResult | src/utilities/helper-function.ts:84-88 | the table's return for a one-unit wager is what `getBetResult` pays when the cap does not bind |
| Outcome.ChipTwoFavoursPlayerAsWritten | src/utilities/helper-function.ts:51-87 | with the code's labelling, one unit on each of the 36 dice pairs returns 75 on chip 2 (more than staked), 30 on chip 1 and 12 on chip 3 |
| Outcome.HouseEdgeIntended | src/utilities/helper-function.ts:51-87 | with the corrected labelling, every chip returns 30 per 36 staked: the house keeps an edge on every bet |
| Outcome.FirstHop | src/utilities/helper-function.ts:23 | the first hop is the trimmed text of the header up to its first comma (the whole header when it has none), and never contains a comma |
| Outcome.FirstHopOfChain | src/utilities/helper-function.ts:23 | a single-hop header is trimmed as a whole; in `"<a>,<rest>"` only `a`, trimmed, counts |
| Outcome.GetUserIP | src/utilities/helper-function.ts:20-27 | when the forwarded header is present and its trimmed first hop is not blank, the address is that hop; otherwise it is the socket address, or `""` when there is none |
| Outcome.ForwardedAddressWins | src/utilities/helper-function.ts:21-24 | for a header `"<ip>,<rest>"` whose first entry is a clean address, that address is used whatever the socket address is |
| Outcome.FallsBackToAddress | src/utilities/helper-function.ts:22-26 | with no header, or an empty one, the socket address is used, or `""` when there is none |
| Router.Route | src/router/message-router.ts:15-18 | a message yields a command iff its first `:` field is BT, JN or LV; BT carries fields 1 and 2 as round id and batch; JN and LV carry field 1; the command is a bet iff the prefix is BT, a join iff it is JN, and a leave iff it is LV |
| Router.RouteRender | src/router/message-router.ts:15-18 | every command whose fields carry no `:` routes back to itself from the message a client sends for it |
| Router.ExtraFieldsIgnored | src/router/message-router.ts:16 | fields after the third never reach the bet handler |
| Router.BareBetMessage | src/router/message-router.ts:16 | a bare `BT` reaches the bet handler with both fields `undefined` |
| Bets.BetIdRoundTrip | src/module/bets/bets-session.ts:173 | the bet id built at line 85 parses back to the same user and operator when no part contains `:` |
| Bets.ColonInUserIdMisparses | src/module/bets/bets-session.ts:173 | a `:` inside the user id makes settlement read a different user and operator |
| Bets.LookupLobby | src/module/bets/bets-session.ts:82-83 | a round id finds a lobby record iff its second `-` field exists and names a known slot, and the record found is that slot's |
| Bets.MessagesDistinct | src/module/bets/bets-session.ts:76-140 | the four rejection texts are pairwise different, so each rejection reason can be told from the text |
| Bets.FailedValidationOutcome | src/module/bets/bets-session.ts:98-117 | a batch with a bad amount, an unknown chip or chips 1 and 3 together is refused as "Invalid Bet type/Amount" whenever the session, both fields and the lobby record exist; it is still that reply when the lobby record is missing but no wager's amount passes the bounds; otherwise it is the missing-session reply (exactly when there is no session) or an exception (a missing round id, or a missing record read at a wager whose amount passes the bounds); the ledger is never asked |
| Bets.CancelledIffDeclined | src/module/bets/bets-session.ts:115-140 | the reply is "Bet Cancelled By Upstream Server" exactly when the batch passes every check and the ledger declines the debit |
| Bets.AbortedIff | src/module/bets/bets-session.ts:81-132 | the code throws exactly when a message field is missing, or the round names no lobby record and the record is read anyway: at a wager whose amount passes the bounds, or at the debit of an empty batch the balance covers |
| Bets.TxnOf | src/module/bets/bets-session.ts:141 | the bet keeps the debit's transaction id exactly when the ledger returned a non-empty one |
| Bets.Chips | src/module/bets/bets-session.ts:104 | the chips collected are the batch's chips in order |
| Bets.ScanBatch | src/module/bets/bets-session.ts:92-107 | the validation loop throws iff there is no lobby record and some wager's amount passes; otherwise it flags the batch iff some wager has a bad amount, an unknown chip or fails the round check, and it sums the amounts and collects the chips |
| Bets.PlaceBet | src/module/bets/bets-session.ts:73-162 | "Invalid Player Details" is the reply exactly when there is no session; an accepted batch needs an approved debit; it appends exactly one bet under its round id and leaves every other entry untouched; the bet records the batch, its total, the round, the bet id, the session's socket, token and game id, the debit's transaction id and the client address; the balance falls by the total and stays non-negative; "Insufficient Balance" means the total exceeds the balance |
| Bets.PlacedIffAdmissible | src/module/bets/bets-session.ts:73-162 | a batch is accepted exactly when the session and both fields exist, the round names a known slot, every amount is positive and within bounds, every chip is 1, 2 or 3, a non-empty batch passes the round check, chips 1 and 3 are not combined, the balance covers the total and the debit is approved |
| Bets.UnderWithOverRefused | src/module/bets/bets-session.ts:109-117 | a batch with chips 1 and 3 is never accepted and the ledger is never asked: the reply is "Invalid Bet type/Amount" whenever the session, both fields and the lobby record exist, and also when the record is missing but no wager's amount passes the bounds; otherwise the missing-session reply (exactly when there is no session) or an exception (a missing round id, or a missing record read at a wager whose amount passes the bounds) |
| Bets.AllThreeClauseRedundant | src/module/bets/bets-session.ts:109-110 | the all-three-chips clause forbids nothing that the 1-with-3 clause does not already forbid |
| Bets.BadWagerRefused | src/module/bets/bets-session.ts:98-117 | one wager with a bad amount or an unknown chip makes the whole batch fail before the debit: "Invalid Bet type/Amount" whenever the session, both fields and the lobby record exist, and also when the record is missing but no wager's amount passes the bounds; otherwise the missing-session reply (exactly when there is no session) or an exception (a missing round id, or a missing record read at a wager whose amount passes the bounds) |
| Bets.RoundCheckAsWritten | src/module/bets/bets-session.ts:101 | any round passes the check while the lobby is betting, and the current round passes it in every phase |
| Bets.RoundCheckIntended | src/module/bets/bets-session.ts:101 | the corrected check passes exactly the current round while betting is open, and refuses everything the written check refuses |
| Bets.InsufficientBalanceRefused | src/module/bets/bets-session.ts:119-121 | a valid batch whose total exceeds the balance is refused as "Insufficient Balance" with no debit and no book change |
| Bets.DeclinedDebitPlacesNothing | src/module/bets/bets-session.ts:140 | a declined debit never stores a bet, and a batch that passed every check is then told "Bet Cancelled By Upstream Server" |
| Bets.DecodeSegments | src/module/bets/bets-session.ts:84-96 | a decoded batch has one wager per comma-separated segment, each the decoding of its segment; decoding fails exactly when some segment does not decode |
| Bets.DecodeEncodeWager | src/module/bets/bets-session.ts:93-95 | one `"<chip>-<amount>"` segment decodes back to its wager and contains no comma |
| Bets.DecodeEncodeWagers | src/module/bets/bets-session.ts:84-96 | every non-empty batch of non-negative whole wagers survives the wire format unchanged |
| Bets.DecodeUnderOverBatch | src/module/bets/bets-session.ts:84-96 | the text `"1-50,3-50"` decodes to fifty on chip 1 and fifty on chip 3 |
| Bets.UnderOverBatchRefused | src/module/bets/bets-session.ts:109-117 | the batch `"1-50,3-50"` is refused at validation, before any debit: as "Invalid Bet type/Amount" whenever the session and round id exist and the code does not throw at a missing lobby record |
| Settlement.TallyWagers | src/module/bets/bets-session.ts:178-186 | the per-wager loop's stake is the batch total; its win is the sum of the capped payouts of wagers on the winning chip; its multiplier is the number of such wagers times the chip's multiplier; each wager's result is `getBetResult` |
| Settlement.RecordOf | src/module/bets/bets-session.ts:188-195 | the record carries the bet id, the round result, the total stake, each wager's `getBetResult` in order, the total multiplier (the number of wagers on the winning chip times its multiplier) and the win (or 0 when the bet does not win) |
| Settlement.SettleOne | src/module/bets/bets-session.ts:171-222 | one record per bet; a credit request iff the bet wins, for the win, addressed to the user and operator parsed from the bet id, with the debit's transaction id and the bet's round, game, address and token; the cached balance of the bet's socket rises by the win and no other session changes; a loser watching the lobby gets exactly a loss notice for its whole stake; a winner gets exactly a win notice when it watches the lobby, followed by a balance notice with its new cached balance when it has a session |
| Settlement.SettleAll | src/module/bets/bets-session.ts:171-223 | bets are settled in order with one record each; no session is added or removed |
| Settlement.SettleBet | src/module/bets/bets-session.ts:164-232 | a missing or empty entry leaves everything as it was and produces nothing; otherwise there is one record per stored bet, in order, with the bet's id, stake, per-wager results, multiplier, win and the round's result, one credit per winning bet in order, each for that bet's positive win and with that bet's ids, the win and loss notices are one per watching player of each bet in order, that round's entry is emptied, and every other round's entry is untouched |
| Settlement.SettleAllCredits | src/module/bets/bets-session.ts:206-209 | every cached balance rises by exactly what its socket's bets won, and nothing else in a session changes |
| Settlement.SettleAllCreditRequests | src/module/bets/bets-session.ts:201-203 | the ledger receives one credit per winning bet, in order, each for that bet's win and carrying that bet's user, operator, round, game, transaction, address and token |
| Settlement.SettleAllAnnouncements | src/module/bets/bets-session.ts:199-220 | besides the balance updates, the notices of a round are, bet by bet in order, the win or the whole-stake loss for each player watching the lobby before settlement |
| Settlement.SettleBetRaisesBalances | src/module/bets/bets-session.ts:199-209 | settling a round raises every cached balance by what that player won in it; no balance falls |
| Settlement.SettleTwiceIsNoOp | src/module/bets/bets-session.ts:167-226 | settling the same round a second time finds an empty entry and produces nothing |
| Settlement.PayoutNeedsWinningChip | src/module/bets/bets-session.ts:178-186 | a batch with no wager on the winning chip wins nothing |
| Settlement.PayoutPositiveIff | src/module/bets/bets-session.ts:201 | with positive amounts and a positive cap, a bet is credited iff one of its wagers is on the winning chip |
| Settlement.PayoutBoundedPerWager | src/utilities/helper-function.ts:87 | the cap binds per wager: a bet wins at most the cap times its number of winning wagers |
| Settlement.PayoutAtMostFiveTimesStake | src/utilities/helper-function.ts:86-87 | no bet wins more than five times its stake |
| Settlement.SettledStakeMatchesDebit | src/module/bets/bets-session.ts:179 | the stake settled for a stored bet equals what its placement took off the balance |
| Settlement.SevenRoundAsWritten | src/utilities/helper-function.ts:51-57 | with the code's labelling, 3 and 4 give category 3: a 10 on chip 2 wins nothing, and a 10 on chip 1 loses its 10 |
| Settlement.SevenRoundIntended | src/utilities/helper-function.ts:51-57 | with the corrected labelling, the same round pays a 10 on chip 2 fifty, capped by the cash-out limit |
| Lobby.StartStagger | src/module/lobbies/lobby-event.ts:21 | a slot's start delay is a whole multiple of 5 s, below 500 s |
| Lobby.StaggersCoincide | src/module/lobbies/lobby-event.ts:21 | two slots start at the same time exactly when their numbers agree modulo 100 |
| Lobby.SlotsStartStaggered | src/module/lobbies/lobby-event.ts:13-22 | slots 101, 102 and 103 start 5, 10 and 15 seconds after launch |
| Lobby.RoundId | src/module/lobbies/lobby-event.ts:33-34 | the round id's second `-` field is the lobby slot, which is what bet placement looks up, and its first field parses back to the timestamp |
| Lobby.RoundIdsDistinct | src/module/lobbies/lobby-event.ts:33-34 | two rounds of one slot started at different times have different ids, so their bets are booked apart |
| Lobby.Round | src/module/lobbies/lobby-event.ts:31-86 | one round is 48 scheduler steps |
| Lobby.RoundTraceOfSlot | src/module/lobbies/lobby-event.ts:31-63 | a round of a slot started at a given time publishes statuses 0 to 3 in order, shows and settles the drawn outcome under its round id, and that id names the slot back |
| Lobby.CountdownTicks | src/module/lobbies/lobby-event.ts:47-50 | the countdown from `x` broadcasts the ticks x down to 0 in order, and nothing else |
| Lobby.ClosingTicks | src/module/lobbies/lobby-event.ts:67-70 | the closing loop from `z` to `n` broadcasts ticks z up to n in order, each with the round's result |
| Lobby.CountdownPause | src/module/lobbies/lobby-event.ts:47-50 | the countdown from `x` sleeps x + 1 seconds |
| Lobby.ClosingPause | src/module/lobbies/lobby-event.ts:67-70 | the closing loop sleeps one second per tick |
| Lobby.PhasesInOrder | src/module/lobbies/lobby-event.ts:36-66 | a round opens by publishing status 0; the statuses published are 0, 1, 2, 3, each exactly once, in that order |
| Lobby.CountdownSixteenTicks | src/module/lobbies/lobby-event.ts:43-50 | the betting countdown broadcasts exactly 16 ticks, 15 down to 0 |
| Lobby.ClosingThreeTicks | src/module/lobbies/lobby-event.ts:65-70 | the ended phase broadcasts exactly 3 ticks, numbered 1 to 3, each carrying the round's result |
| Lobby.MilestonesInOrder | src/module/lobbies/lobby-event.ts:36-83 | leaving out ticks and pauses, a round is: open; lock with the calculating notice; result shown; settlement of the bets booked under the round id, on that same result, while still in status 2; end; history with the result |
| Lobby.RoundTakesThirtySeconds | src/module/lobbies/lobby-event.ts:47-70 | a round sleeps 16 + 3 + 8 + 3 = 30 seconds in total |
| Lobby.StepStatus | src/module/lobbies/lobby-event.ts:36-66 | step k of a round runs under status 0 for k < 33, 1 for k < 36, 2 for k < 40, and 3 after that |
| Lobby.StatusNeverDecreases | src/module/lobbies/lobby-event.ts:36-66 | the lobby status never goes back within a round |
| Lobby.OneOutcomePerRound | src/module/lobbies/lobby-event.ts:44-83 | every step that carries an outcome carries the one drawn before betting opened |
| Lobby.LateBetPassesRoundCheck | src/module/lobbies/lobby-event.ts:58-63 | as written, while the result is shown and settlement has not run yet (status 2), a bet on the current round passes the round check, although the corrected check refuses it |
| Lobby.IntendedCheckOnlyWhileBetting | src/module/lobbies/lobby-event.ts:36-53 | under the corrected check a bet passes at a step only if it names the current round and no step so far has locked the lobby or revealed the result |

## Left out

- `joinRoom` and `leaveRoom`: they only manage socket-room membership and rewrite the cached room id. Settlement takes that room id as an input.
- Socket.io emits, rooms and timers: broadcasts are trace steps and sleeps are `Pause` steps. The balance update after a win is sent 200 ms after the win notice; the model keeps that order but not the delay.
- Redis, SQL and logging: the cache is a map, and records are output values. `insertBets`, `addSettleBet`, `insertLobbies` and history reads are left out.
- The ledger: the debit reply is an input. The credit reply only chooses a log line, so it is not modelled.
- `Math.random`: the dice are inputs.
- Concurrency: the three lobbies run at once, and bets arrive while a round runs. The model covers one round and one placement at a time, not their interleavings. The lobby record a placement sees is an input.
- Lobby.Round: only one round is modelled; the unbounded recursion of `initLobby` is not. Each round starts afresh with a new timestamp.
- The text of `cards` broadcasts and the JSON encoding of results and history are not modelled, and neither is the `time` field of the history record.
- Bets.PlaceBet: amounts are whole numbers. `Number()` of non-digit text (NaN, decimals, signs, white space) is not modelled, and neither is the `toFixed(2)` rounding of the stored balance.
- Bets.DecodeWagers: only digit text decodes. Text that JavaScript's `Number()` would turn into 0, NaN or a fraction is treated as undecodable.
- Settlement.SettleBet: an exception inside the loop (for example a failing ledger or cache call) aborts settlement without clearing the book. The model assumes those calls return.
- Settlement.SettleBet: the balance notices are stated per bet in `SettleOne`; over a whole round only the win and loss notices are stated (`SettleAllAnnouncements`).
- Lookups in `lobbyData` with slot names that collide with JavaScript object prototype keys are not modelled.

## Findings

| source | as written | input that shows it | evidently intended | confidence | as-written member | corrected member |
|---|---|---|---|---|---|---|
| src/module/bets/bets-session.ts:101 | the round check refuses a wager only when the bet names another round AND the lobby is not betting, because `&&` binds tighter than `\|\|` | lobby record (`"1-101"`, status 2) with the result already broadcast and settlement pending: a bet on round `"1-101"` passes; in status 0 a bet naming any other round passes | refuse unless the bet names the current round and the lobby is in status 0 | high; not executed | Bets.RoundRejected, Bets.RoundCheckAsWritten, Lobby.LateBetPassesRoundCheck | Bets.RoundRejectedIntended, Bets.RoundCheckIntended, Lobby.IntendedCheckOnlyWhileBetting |
| src/utilities/helper-function.ts:51-57 | sums above seven are category 2 and exactly seven is category 3, while line 86 pays chip 2 at 5x and placement forbids combining chips 1 and 3; the comment at line 39 names the categories the same way, so the slip may instead be the multiplier | dice (4, 4): category 2, so a 10 on chip 2 is paid 50; over all 36 dice pairs, one unit on chip 2 returns 75 | category 2 is the rare "exact seven" that the 5x multiplier prices, and 3 is "above seven"; every chip then returns 30 per 36 | medium; not executed | Outcome.GetResult, Outcome.ChipTwoFavoursPlayerAsWritten, Settlement.SevenRoundAsWritten | Outcome.GetResultIntended, Outcome.HouseEdgeIntended, Settlement.SevenRoundIntended |

Bet placement (`Bets.PlaceBet`) keeps the round check as written, and the round trace takes its result as an input. This way the model describes what the deployed code does. Each corrected definition is stated next to its as-written counterpart, and its intended property is proved there.

=== FILE: bets.dfy ===
/** Bet placement: validating one batch of chip wagers sent by a player,
    debiting the ledger, and recording the bet in the per-round bet book.
    Everything that leaves the process (cache, ledger, sockets, database)
    is an input or an output value here. */
module Bets {
  import opened Wrappers
  import Text
  import Outcome

  /** The limits read from the application configuration. */
  datatype Config = Config(minBetAmount: int, maxBetAmount: int, maxCashoutAmount: int)

  /** What the lobby scheduler publishes for one lobby slot: the current
      round id and the phase (0 betting, 1 calculating, 2 result, 3 ended). */
  datatype LobbyData = LobbyData(lobbyId: string, status: int)

  /** The cached session of one connected player. `roomId` is the lobby slot
      the player last joined (`None` before any join). */
  datatype PlayerDetails = PlayerDetails(
    userId: string, operatorId: string, token: string, gameId: string,
    balance: int, socketId: string, roomId: Option<string>)

  /** One chip wager of a batch. */
  datatype BetData = BetData(betAmount: int, chip: int)

  /** One accepted batch, as stored in the bet book until settlement. */
  datatype BetObject = BetObject(
    betId: string, token: string, socketId: string, gameId: string,
    lobbyId: string, betAmount: int, userBets: seq<BetData>,
    txnId: Option<string>, ip: string)

  /** Accepted bets per round id. */
  type Book = map<string, seq<BetObject>>

  /** The ledger's answer to a debit request. */
  datatype DebitReply = DebitReply(status: bool, txnId: Option<string>)

  datatype Rejection = InvalidPlayerDetails | InvalidBet | InsufficientBalance | CancelledUpstream

  /** The `betError` text sent back for each rejection. */
  function Message(r: Rejection): string {
    match r
    case InvalidPlayerDetails => "Invalid Player Details"
    case InvalidBet => "Invalid Bet type/Amount"
    case InsufficientBalance => "Insufficient Balance"
    case CancelledUpstream => "Bet Cancelled By Upstream Server"
  }

  /** Every rejection has its own text, so a client can tell them apart. */
  lemma MessagesDistinct(a: Rejection, b: Rejection)
    ensures Message(a) == Message(b) <==> a == b
  {
  }

  /** How a placement ends: accepted with the new book and session, refused
      with a message, or aborted by a JavaScript exception before any state
      was touched (a missing message field or an unknown lobby slot). */
  datatype Placement =
    | Placed(book: Book, player: PlayerDetails, bet: BetObject)
    | Rejected(reason: Rejection)
    | Aborted

  // ---------------------------------------------------------------------
  // Identifiers

  /** `BT:<round id>:<user id>:<operator id>`. */
  function BetId(lobbyId: string, userId: string, operatorId: string): string {
    Text.Join(["BT", lobbyId, userId, operatorId], ':')
  }

  /** The user and operator a settlement reads back out of a bet id: its
      third and fourth ':'-separated fields. */
  function ParseBetId(betId: string): (Option<string>, Option<string>) {
    var f := Text.Split(betId, ':');
    (Text.Field(f, 2), Text.Field(f, 3))
  }

  /** A bet id parses back to the user and operator it was built from, as
      long as none of its parts contains ':'. */
  lemma BetIdRoundTrip(lobbyId: string, userId: string, operatorId: string)
    requires ':' !in lobbyId && ':' !in userId && ':' !in operatorId
    ensures ParseBetId(BetId(lobbyId, userId, operatorId)) == (Some(userId), Some(operatorId))
  {
    Text.SplitJoin(["BT", lobbyId, userId, operatorId], ':');
  }

  /** A ':' inside a user id shifts the fields: the settlement credits a
      different user and operator than the one that placed the bet. */
  lemma ColonInUserIdMisparses()
    ensures ParseBetId(BetId("1-101", "a:b", "op")) == (Some("a"), Some("b"))
  {
    Text.SplitJoin(["BT", "1-101", "a", "b", "op"], ':');
    assert BetId("1-101", "a:b", "op") == Text.Join(["BT", "1-101", "a", "b", "op"], ':');
  }

  /** The lobby slot a round id names: its second '-'-separated field. */
  function LobbyNo(roundRef: string): Option<string> {
    Text.Field(Text.Split(roundRef, '-'), 1)
  }

  /** `lobbyData[lobbyNo]`; `None` when the slot is missing or unknown. */
  function LookupLobby(lobbies: map<string, LobbyData>, roundRef: string): (l: Option<LobbyData>)
    ensures l.Some? <==> LobbyNo(roundRef).Some? && LobbyNo(roundRef).value in lobbies
    ensures l.Some? ==> l.value == lobbies[LobbyNo(roundRef).value]
  {
    var no := LobbyNo(roundRef);
    if no.Some? && no.value in lobbies then Some(lobbies[no.value]) else None
  }

  // ---------------------------------------------------------------------
  // Validation of one batch

  predicate AmountRejected(cfg: Config, amount: int) {
    amount <= 0 || amount < cfg.minBetAmount || amount > cfg.maxBetAmount
  }

  /** The round check exactly as the code evaluates it: `&&` binds tighter
      than `||`, so a bet is refused only when it names another round AND
      the lobby is not in its betting phase. */
  predicate RoundRejected(l: LobbyData, roundRef: string) {
    l.lobbyId != roundRef && l.status != 0
  }

  /** The round check the surrounding comparison was meant to be: refuse
      unless the bet names the current round and betting is open. */
  predicate RoundRejectedIntended(l: LobbyData, roundRef: string) {
    l.lobbyId != roundRef || l.status != 0
  }

  predicate ChipRejected(chip: int) {
    chip !in {1, 2, 3}
  }

  /** The per-wager flag of the validation loop. With no lobby record the
      round part cannot be reached without an exception (see `LookupThrows`). */
  predicate WagerFlagged(cfg: Config, lData: Option<LobbyData>, roundRef: string, w: BetData) {
    AmountRejected(cfg, w.betAmount)
    || (lData.Some? && RoundRejected(lData.value, roundRef))
    || ChipRejected(w.chip)
  }

  /** The validation loop reads `lData.lobbyId` for the first wager whose
      amount passes, which throws when the lobby record is missing. */
  predicate LookupThrows(cfg: Config, lData: Option<LobbyData>, ws: seq<BetData>) {
    lData.None? && exists i :: 0 <= i < |ws| && !AmountRejected(cfg, ws[i].betAmount)
  }

  function Chips(ws: seq<BetData>): (chips: seq<int>)
    ensures |chips| == |ws|
    ensures forall i :: 0 <= i < |ws| ==> chips[i] == ws[i].chip
  {
    seq(|ws|, i requires 0 <= i < |ws| => ws[i].chip)
  }

  /** "Under" with "over", or all three chips, may not be combined. */
  predicate ForbiddenCombination(chips: seq<int>) {
    (1 in chips && 3 in chips) || (1 in chips && 2 in chips && 3 in chips)
  }

  /** Sum of the wager amounts of a batch. */
  function Total(ws: seq<BetData>): int {
    if |ws| == 0 then 0 else ws[0].betAmount + Total(ws[1..])
  }

  lemma {:induction false} TotalSnoc(ws: seq<BetData>)
    requires |ws| > 0
    ensures Total(ws) == Total(ws[..|ws| - 1]) + ws[|ws| - 1].betAmount
    decreases |ws|
  {
    if |ws| > 1 {
      TotalSnoc(ws[1..]);
      assert ws[1..][..|ws| - 2] == ws[..|ws| - 1][1..];
    }
  }

  /** The state the validation loop leaves behind. */
  datatype Scan = Threw | Scanned(invalid: bool, total: int, chips: seq<int>)

  /** The validation loop, wager by wager in order: flags a wager with a bad
      amount, a stale round or an unknown chip, and accumulates the total
      and the chips seen. */
  function ScanBatch(cfg: Config, lData: Option<LobbyData>, roundRef: string, ws: seq<BetData>): (s: Scan)
    ensures s.Threw? <==> LookupThrows(cfg, lData, ws)
    ensures s.Scanned? ==>
              (s.invalid <==> exists i :: 0 <= i < |ws| && WagerFlagged(cfg, lData, roundRef, ws[i]))
    ensures s.Scanned? ==> s.total == Total(ws) && s.chips == Chips(ws)
    decreases |ws|
  {
    if |ws| == 0 then Scanned(false, 0, [])
    else
      var prefix := ws[..|ws| - 1];
      var w := ws[|ws| - 1];
      var before := ScanBatch(cfg, lData, roundRef, prefix);
      assert forall i :: 0 <= i < |prefix| ==> prefix[i] == ws[i];
      TotalSnoc(ws);
      assert Chips(ws) == Chips(prefix) + [w.chip];
      if before.Threw? then Threw
      else if lData.None? && !AmountRejected(cfg, w.betAmount) then Threw
      else
        Scanned(before.invalid || WagerFlagged(cfg, lData, roundRef, w),
                before.total + w.betAmount, before.chips + [w.chip])
  }

  /** The transaction id kept from a debit: only a non-empty one. */
  function TxnOf(debit: DebitReply): (txn: Option<string>)
    ensures txn.Some? <==> debit.txnId.Some? && debit.txnId.value != ""
    ensures txn.Some? ==> txn == debit.txnId
  {
    if debit.txnId.Some? && debit.txnId.value != "" then debit.txnId else None
  }

  function Append(book: Book, key: string, bet: BetObject): Book {
    book[key := (if key in book then book[key] else []) + [bet]]
  }

  /** Everything a batch needs before the ledger is asked, stated on its own. */
  predicate Acceptable(cfg: Config, lobbies: map<string, LobbyData>, player: Option<PlayerDetails>,
                       roundRef: Option<string>, betList: Option<seq<BetData>>)
  {
    && player.Some? && roundRef.Some? && betList.Some?
    && var ws := betList.value;
    && LookupLobby(lobbies, roundRef.value).Some?
    && (forall i :: 0 <= i < |ws| ==>
          && 0 < ws[i].betAmount
          && cfg.minBetAmount <= ws[i].betAmount <= cfg.maxBetAmount
          && ws[i].chip in {1, 2, 3})
    && (|ws| > 0 ==> !RoundRejected(LookupLobby(lobbies, roundRef.value).value, roundRef.value))
    && !(1 in Chips(ws) && 3 in Chips(ws))
    && Total(ws) <= player.value.balance
  }

  /** Everything a batch needs in order to be accepted: acceptable, and
      the ledger approves the debit. */
  predicate Admissible(cfg: Config, lobbies: map<string, LobbyData>, player: Option<PlayerDetails>,
                       roundRef: Option<string>, betList: Option<seq<BetData>>, debit: DebitReply)
  {
    Acceptable(cfg, lobbies, player, roundRef, betList) && debit.status
  }

  /** Handles one `BT` message. `player` is the cached session (if any),
      `roundRef` and `betList` the message fields (absent fields are
      `None`), `handshake` the connection the address is read from, and
      `debit` what the ledger answers if it is asked. */
  function PlaceBet(cfg: Config, lobbies: map<string, LobbyData>, book: Book,
                    player: Option<PlayerDetails>, roundRef: Option<string>,
                    betList: Option<seq<BetData>>, handshake: Outcome.Handshake,
                    debit: DebitReply): (r: Placement)
    ensures r.Placed? ==> player.Some? && roundRef.Some? && betList.Some? && debit.status
    ensures r.Placed? ==>
              && r.book.Keys == book.Keys + {roundRef.value}
              && (forall k :: k in book && k != roundRef.value ==> r.book[k] == book[k])
              && r.book[roundRef.value] ==
                   (if roundRef.value in book then book[roundRef.value] else []) + [r.bet]
    ensures r.Placed? ==>
              && r.bet.userBets == betList.value
              && r.bet.betAmount == Total(betList.value)
              && r.bet.lobbyId == roundRef.value
              && r.bet.betId == BetId(roundRef.value, player.value.userId, player.value.operatorId)
              && r.bet.socketId == player.value.socketId
              && r.bet.token == player.value.token
              && r.bet.gameId == player.value.gameId
              && r.bet.txnId == TxnOf(debit)
              && r.bet.ip == Outcome.GetUserIP(handshake)
    ensures r.Placed? ==>
              && r.player == player.value.(balance := player.value.balance - Total(betList.value))
              && 0 <= r.player.balance
    ensures r.Rejected? && r.reason == InsufficientBalance ==>
              player.Some? && betList.Some? && Total(betList.value) > player.value.balance
    ensures r == Rejected(InvalidPlayerDetails) <==> player.None?
  {
    if player.None? then Rejected(InvalidPlayerDetails)
    else if roundRef.None? || betList.None? then Aborted
    else
      var p := player.value;
      var ref := roundRef.value;
      var ws := betList.value;
      var lData := LookupLobby(lobbies, ref);
      match ScanBatch(cfg, lData, ref, ws)
      case Threw => Aborted
      case Scanned(flagged, total, chips) =>
        if flagged || ForbiddenCombination(chips) then Rejected(InvalidBet)
        else if total > p.balance then Rejected(InsufficientBalance)
        else if lData.None? then Aborted
        else if !debit.status then Rejected(CancelledUpstream)
        else
          var bet := BetObject(BetId(ref, p.userId, p.operatorId), p.token, p.socketId, p.gameId,
                               ref, total, ws, TxnOf(debit), Outcome.GetUserIP(handshake));
          Placed(Append(book, ref, bet), p.(balance := p.balance - total), bet)
  }

  // ---------------------------------------------------------------------
  // Properties of placement

  /** A batch is accepted exactly when it is admissible. */
  lemma PlacedIffAdmissible(cfg: Config, lobbies: map<string, LobbyData>, book: Book,
                            player: Option<PlayerDetails>, roundRef: Option<string>,
                            betList: Option<seq<BetData>>, handshake: Outcome.Handshake,
                            debit: DebitReply)
    ensures PlaceBet(cfg, lobbies, book, player, roundRef, betList, handshake, debit).Placed?
            <==> Admissible(cfg, lobbies, player, roundRef, betList, debit)
  {
    if player.Some? && roundRef.Some? && betList.Some? {
      var ws := betList.value;
      var ref := roundRef.value;
      var lData := LookupLobby(lobbies, ref);
      var s := ScanBatch(cfg, lData, ref, ws);
      var r := PlaceBet(cfg, lobbies, book, player, roundRef, betList, handshake, debit);
      if lData.Some? {
        assert !s.Threw?;
        if s.invalid {
          var i :| 0 <= i < |ws| && WagerFlagged(cfg, lData, ref, ws[i]);
          assert !Admissible(cfg, lobbies, player, roundRef, betList, debit);
        } else {
          assert forall i :: 0 <= i < |ws| ==> !WagerFlagged(cfg, lData, ref, ws[i]);
          if |ws| > 0 {
            assert !WagerFlagged(cfg, lData, ref, ws[0]);
          }
          assert r.Placed? <==> Admissible(cfg, lobbies, player, roundRef, betList, debit);
        }
      } else if |ws| > 0 {
        assert WagerFlagged(cfg, lData, ref, ws[0]) || s.Threw?;
      }
    }
  }

  /** "Under" and "over" together are refused whatever the amounts, and
      the ledger is never asked. */
  lemma UnderWithOverRefused(cfg: Config, lobbies: map<string, LobbyData>, book: Book,
                             player: Option<PlayerDetails>, roundRef: Option<string>,
                             betList: Option<seq<BetData>>, handshake: Outcome.Handshake,
                             debit: DebitReply)
    requires betList.Some? && 1 in Chips(betList.value) && 3 in Chips(betList.value)
    ensures var r := PlaceBet(cfg, lobbies, book, player, roundRef, betList, handshake, debit);
            !r.Placed? && r != Rejected(CancelledUpstream)
    ensures var r := PlaceBet(cfg, lobbies, book, player, roundRef, betList, handshake, debit);
            r == Rejected(InvalidPlayerDetails) || r == Rejected(InvalidBet) || r == Aborted
    ensures player.Some? && roundRef.Some? && LookupLobby(lobbies, roundRef.value).Some? ==>
              PlaceBet(cfg, lobbies, book, player, roundRef, betList, handshake, debit) == Rejected(InvalidBet)
    ensures player.Some? && roundRef.Some?
            && !LookupThrows(cfg, LookupLobby(lobbies, roundRef.value), betList.value) ==>
              PlaceBet(cfg, lobbies, book, player, roundRef, betList, handshake, debit) == Rejected(InvalidBet)
    ensures PlaceBet(cfg, lobbies, book, player, roundRef, betList, handshake, debit) == Aborted ==>
              player.Some? &&
              (roundRef.None? || LookupThrows(cfg, LookupLobby(lobbies, roundRef.value), betList.value))
  {
    PlacedIffAdmissible(cfg, lobbies, book, player, roundRef, betList, handshake, debit);
    FailedValidationOutcome(cfg, lobbies, book, player, roundRef, betList, handshake, debit);
  }

  /** The all-three clause adds nothing: any batch with all three chips
      already has chips 1 and 3. */
  lemma AllThreeClauseRedundant(chips: seq<int>)
    ensures ForbiddenCombination(chips) <==> (1 in chips && 3 in chips)
  {
  }

  /** A wager out of bounds or on an unknown chip makes the whole batch fail
      before the ledger is asked. */
  lemma BadWagerRefused(cfg: Config, lobbies: map<string, LobbyData>, book: Book,
                        player: Option<PlayerDetails>, roundRef: Option<string>,
                        betList: Option<seq<BetData>>, handshake: Outcome.Handshake,
                        debit: DebitReply, i: nat)
    requires betList.Some? && i < |betList.value|
    requires AmountRejected(cfg, betList.value[i].betAmount) || ChipRejected(betList.value[i].chip)
    ensures var r := PlaceBet(cfg, lobbies, book, player, roundRef, betList, handshake, debit);
            !r.Placed? && r != Rejected(CancelledUpstream)
    ensures var r := PlaceBet(cfg, lobbies, book, player, roundRef, betList, handshake, debit);
            r == Rejected(InvalidPlayerDetails) || r == Rejected(InvalidBet) || r == Aborted
    ensures player.Some? && roundRef.Some? && LookupLobby(lobbies, roundRef.value).Some? ==>
              PlaceBet(cfg, lobbies, book, player, roundRef, betList, handshake, debit) == Rejected(InvalidBet)
    ensures player.Some? && roundRef.Some?
            && !LookupThrows(cfg, LookupLobby(lobbies, roundRef.value), betList.value) ==>
              PlaceBet(cfg, lobbies, book, player, roundRef, betList, handshake, debit) == Rejected(InvalidBet)
    ensures PlaceBet(cfg, lobbies, book, player, roundRef, betList, handshake, debit) == Aborted ==>
              player.Some? &&
              (roundRef.None? || LookupThrows(cfg, LookupLobby(lobbies, roundRef.value), betList.value))
  {
    PlacedIffAdmissible(cfg, lobbies, book, player, roundRef, betList, handshake, debit);
    FailedValidationOutcome(cfg, lobbies, book, player, roundRef, betList, handshake, debit);
  }

  /** The round check refuses a bet exactly when the lobby record names a
      different round and the lobby is not betting: during betting any
      round id passes, and the current round id passes in every phase. */
  lemma RoundCheckAsWritten(l: LobbyData, roundRef: string)
    ensures l.status == 0 ==> !RoundRejected(l, roundRef)
    ensures l.lobbyId == roundRef ==> !RoundRejected(l, roundRef)
  {
  }

  /** Under the intended check a passing bet names the current round while
      betting is open, and nothing else passes. */
  lemma RoundCheckIntended(l: LobbyData, roundRef: string)
    ensures !RoundRejectedIntended(l, roundRef) <==> (l.lobbyId == roundRef && l.status == 0)
    ensures RoundRejected(l, roundRef) ==> RoundRejectedIntended(l, roundRef)
  {
  }

  /** A valid batch the balance cannot cover is refused as "Insufficient
      Balance" and the ledger is never asked. */
  lemma InsufficientBalanceRefused(cfg: Config, lobbies: map<string, LobbyData>, book: Book,
                                   player: Option<PlayerDetails>, roundRef: Option<string>,
                                   betList: Option<seq<BetData>>, handshake: Outcome.Handshake,
                                   debit: DebitReply)
    requires player.Some? && roundRef.Some? && betList.Some?
    requires var l := LookupLobby(lobbies, roundRef.value);
             l.Some? && !RoundRejected(l.value, roundRef.value)
    requires forall i :: 0 <= i < |betList.value| ==>
               !AmountRejected(cfg, betList.value[i].betAmount) && !ChipRejected(betList.value[i].chip)
    requires !ForbiddenCombination(Chips(betList.value))
    requires Total(betList.value) > player.value.balance
    ensures PlaceBet(cfg, lobbies, book, player, roundRef, betList, handshake, debit)
            == Rejected(InsufficientBalance)
  {
  }

  /** "Bet Cancelled By Upstream Server" is the reply exactly when the
      batch passed every check and the ledger declined the debit. */
  lemma CancelledIffDeclined(cfg: Config, lobbies: map<string, LobbyData>, book: Book,
                             player: Option<PlayerDetails>, roundRef: Option<string>,
                             betList: Option<seq<BetData>>, handshake: Outcome.Handshake,
                             debit: DebitReply)
    ensures PlaceBet(cfg, lobbies, book, player, roundRef, betList, handshake, debit)
              == Rejected(CancelledUpstream)
            <==> Acceptable(cfg, lobbies, player, roundRef, betList) && !debit.status
  {
    var approved := debit.(status := true);
    PlacedIffAdmissible(cfg, lobbies, book, player, roundRef, betList, handshake, approved);
    assert PlaceBet(cfg, lobbies, book, player, roundRef, betList, handshake, debit)
             == Rejected(CancelledUpstream)
           <==> !debit.status
                && PlaceBet(cfg, lobbies, book, player, roundRef, betList, handshake, approved).Placed?;
  }

  /** A declined debit leaves everything as it was, and an acceptable batch
      is then told that the ledger cancelled it. */
  lemma DeclinedDebitPlacesNothing(cfg: Config, lobbies: map<string, LobbyData>, book: Book,
                                   player: Option<PlayerDetails>, roundRef: Option<string>,
                                   betList: Option<seq<BetData>>, handshake: Outcome.Handshake,
                                   debit: DebitReply)
    requires !debit.status
    ensures !PlaceBet(cfg, lobbies, book, player, roundRef, betList, handshake, debit).Placed?
    ensures Acceptable(cfg, lobbies, player, roundRef, betList) ==>
              PlaceBet(cfg, lobbies, book, player, roundRef, betList, handshake, debit)
                == Rejected(CancelledUpstream)
  {
    CancelledIffDeclined(cfg, lobbies, book, player, roundRef, betList, handshake, debit);
  }

  /** When validation flags the batch, the ledger is never asked: the reply
      is "Invalid Bet type/Amount" unless the session is missing or the code
      throws first (a missing round id, or a missing lobby record read at a
      wager whose amount passes the bounds). With the session, both fields
      and the lobby record present it is always that reply. */
  lemma FailedValidationOutcome(cfg: Config, lobbies: map<string, LobbyData>, book: Book,
                                player: Option<PlayerDetails>, roundRef: Option<string>,
                                betList: Option<seq<BetData>>, handshake: Outcome.Handshake,
                                debit: DebitReply)
    requires betList.Some?
    requires (exists i :: 0 <= i < |betList.value| &&
                (AmountRejected(cfg, betList.value[i].betAmount) || ChipRejected(betList.value[i].chip)))
             || ForbiddenCombination(Chips(betList.value))
    ensures var r := PlaceBet(cfg, lobbies, book, player, roundRef, betList, handshake, debit);
            r == Rejected(InvalidPlayerDetails) || r == Rejected(InvalidBet) || r == Aborted
    ensures player.Some? && roundRef.Some? && LookupLobby(lobbies, roundRef.value).Some? ==>
              PlaceBet(cfg, lobbies, book, player, roundRef, betList, handshake, debit) == Rejected(InvalidBet)
    ensures player.Some? && roundRef.Some?
            && !LookupThrows(cfg, LookupLobby(lobbies, roundRef.value), betList.value) ==>
              PlaceBet(cfg, lobbies, book, player, roundRef, betList, handshake, debit) == Rejected(InvalidBet)
    ensures PlaceBet(cfg, lobbies, book, player, roundRef, betList, handshake, debit) == Aborted ==>
              player.Some? &&
              (roundRef.None? || LookupThrows(cfg, LookupLobby(lobbies, roundRef.value), betList.value))
  {
    if player.Some? && roundRef.Some? {
      var ws := betList.value;
      var lData := LookupLobby(lobbies, roundRef.value);
      var s := ScanBatch(cfg, lData, roundRef.value, ws);
      if s.Scanned? && !ForbiddenCombination(Chips(ws)) {
        var i :| 0 <= i < |ws| && (AmountRejected(cfg, ws[i].betAmount) || ChipRejected(ws[i].chip));
        assert WagerFlagged(cfg, lData, roundRef.value, ws[i]);
      }
    }
  }

  /** The code throws exactly when a message field is missing, or the round
      names no lobby record and the record is read anyway: by the
      validation loop, at the first wager whose amount passes the bounds,
      or by the debit request, for an empty batch the balance covers. */
  lemma AbortedIff(cfg: Config, lobbies: map<string, LobbyData>, book: Book,
                   player: Option<PlayerDetails>, roundRef: Option<string>,
                   betList: Option<seq<BetData>>, handshake: Outcome.Handshake,
                   debit: DebitReply)
    ensures PlaceBet(cfg, lobbies, book, player, roundRef, betList, handshake, debit) == Aborted
            <==> player.Some? &&
                 (roundRef.None? || betList.None? ||
                  (LookupLobby(lobbies, roundRef.value).None? &&
                   ((exists i :: 0 <= i < |betList.value| && !AmountRejected(cfg, betList.value[i].betAmount))
                    || (|betList.value| == 0 && 0 <= player.value.balance))))
  {
    if player.Some? && roundRef.Some? && betList.Some? {
      var ws := betList.value;
      var lData := LookupLobby(lobbies, roundRef.value);
      if lData.None? && |ws| > 0 && !LookupThrows(cfg, lData, ws) {
        assert WagerFlagged(cfg, lData, roundRef.value, ws[0]);
      }
      if |ws| == 0 {
        assert Chips(ws) == [];
      }
    }
  }

  // ---------------------------------------------------------------------
  // Wire format of a batch: "<chip>-<amount>,<chip>-<amount>,..."

  /** One `"<chip>-<amount>"` segment; fields past the second are ignored.
      Only digit text is modelled. */
  function DecodeWager(seg: string): Option<BetData> {
    var parts := Text.Split(seg, '-');
    if |parts| >= 2 && Text.ParseNat(parts[0]).Some? && Text.ParseNat(parts[1]).Some? then
      Some(BetData(Text.ParseNat(parts[1]).value, Text.ParseNat(parts[0]).value))
    else None
  }

  /** The segments decoded one by one; `None` as soon as one fails. */
  function DecodeSegments(segs: seq<string>): (r: Option<seq<BetData>>)
    ensures r.Some? ==> |r.value| == |segs|
    ensures r.Some? ==> forall i :: 0 <= i < |segs| ==> DecodeWager(segs[i]) == Some(r.value[i])
    ensures r.None? <==> exists i :: 0 <= i < |segs| && DecodeWager(segs[i]).None?
  {
    if |segs| == 0 then Some([])
    else
      var w := DecodeWager(segs[0]);
      var rest := DecodeSegments(segs[1..]);
      if w.Some? && rest.Some? then Some([w.value] + rest.value) else None
  }

  /** The batch field of a `BT` message, split on ',' then on '-'. */
  function DecodeWagers(s: string): Option<seq<BetData>> {
    DecodeSegments(Text.Split(s, ','))
  }

  predicate Encodable(ws: seq<BetData>) {
    |ws| >= 1 && forall i :: 0 <= i < |ws| ==> ws[i].betAmount >= 0 && ws[i].chip >= 0
  }

  function EncodeWager(w: BetData): string
    requires w.betAmount >= 0 && w.chip >= 0
  {
    Text.Join([Text.NatToString(w.chip), Text.NatToString(w.betAmount)], '-')
  }

  function EncodeSegments(ws: seq<BetData>): (segs: seq<string>)
    requires forall i :: 0 <= i < |ws| ==> ws[i].betAmount >= 0 && ws[i].chip >= 0
    ensures |segs| == |ws|
    ensures forall i :: 0 <= i < |ws| ==> segs[i] == EncodeWager(ws[i])
  {
    if |ws| == 0 then [] else [EncodeWager(ws[0])] + EncodeSegments(ws[1..])
  }

  /** The batch text a client sends for a list of wagers. */
  function EncodeWagers(ws: seq<BetData>): string
    requires Encodable(ws)
  {
    Text.Join(EncodeSegments(ws), ',')
  }

  lemma DecodeEncodeWager(w: BetData)
    requires w.betAmount >= 0 && w.chip >= 0
    ensures DecodeWager(EncodeWager(w)) == Some(w)
    ensures ',' !in EncodeWager(w)
  {
    var a := Text.NatToString(w.chip);
    var b := Text.NatToString(w.betAmount);
    Text.NatToStringNoSeparator(w.chip, '-');
    Text.NatToStringNoSeparator(w.betAmount, '-');
    Text.NatToStringNoSeparator(w.chip, ',');
    Text.NatToStringNoSeparator(w.betAmount, ',');
    Text.SplitJoin([a, b], '-');
    Text.ParseNatToString(w.chip);
    Text.ParseNatToString(w.betAmount);
  }

  /** A decodable segment in front of a decodable list decodes in front. */
  lemma DecodeSegmentsCons(seg: string, segs: seq<string>, w: BetData, ws: seq<BetData>)
    requires DecodeWager(seg) == Some(w) && DecodeSegments(segs) == Some(ws)
    ensures DecodeSegments([seg] + segs) == Some([w] + ws)
  {
    assert ([seg] + segs)[0] == seg && ([seg] + segs)[1..] == segs;
  }

  /** Segments that each decode to the wager at the same position decode
      to the whole list. */
  lemma {:induction false} DecodeEach(segs: seq<string>, ws: seq<BetData>)
    requires |segs| == |ws|
    requires forall i :: 0 <= i < |segs| ==> DecodeWager(segs[i]) == Some(ws[i])
    ensures DecodeSegments(segs) == Some(ws)
    decreases |segs|
  {
    if |segs| > 0 {
      DecodeEach(segs[1..], ws[1..]);
      DecodeSegmentsCons(segs[0], segs[1..], ws[0], ws[1..]);
      assert [segs[0]] + segs[1..] == segs;
      assert [ws[0]] + ws[1..] == ws;
    }
  }

  lemma DecodeEncodeSegments(ws: seq<BetData>)
    requires forall i :: 0 <= i < |ws| ==> ws[i].betAmount >= 0 && ws[i].chip >= 0
    ensures DecodeSegments(EncodeSegments(ws)) == Some(ws)
  {
    var segs := EncodeSegments(ws);
    forall i | 0 <= i < |ws|
      ensures DecodeWager(segs[i]) == Some(ws[i])
    {
      DecodeEncodeWager(ws[i]);
    }
    DecodeEach(segs, ws);
  }

  /** Every batch of non-negative whole wagers survives the wire unchanged. */
  lemma DecodeEncodeWagers(ws: seq<BetData>)
    requires Encodable(ws)
    ensures DecodeWagers(EncodeWagers(ws)) == Some(ws)
  {
    var segs := EncodeSegments(ws);
    forall i | 0 <= i < |segs|
      ensures ',' !in segs[i]
    {
      DecodeEncodeWager(ws[i]);
    }
    Text.SplitJoin(segs, ',');
    DecodeEncodeSegments(ws);
  }

  lemma DecodeFiftySegment(seg: string, c: char)
    requires Text.IsDigit(c) && seg == [c, '-', '5', '0']
    ensures DecodeWager(seg) == Some(BetData(50, Text.DigitValue(c)))
  {
    assert seg == [c] + ['-'] + "50";
    Text.SplitCons([c], '-', "50");
    Text.SplitNoSep("50", '-');
    assert Text.DigitsValue("50") == 50 by {
      assert "50"[..1] == "5" && "5"[..0] == "";
    }
    assert Text.DigitsValue([c]) == Text.DigitValue(c) by {
      assert [c][..0] == "";
    }
  }

  /** Two comma-free segments decode independently. */
  lemma DecodeTwoSegments(a: string, b: string)
    requires ',' !in a && ',' !in b
    requires DecodeWager(a).Some? && DecodeWager(b).Some?
    ensures DecodeWagers(a + [','] + b) == Some([DecodeWager(a).value, DecodeWager(b).value])
  {
    Text.SplitCons(a, ',', b);
    Text.SplitNoSep(b, ',');
    var segs := [a, b];
    assert Text.Split(a + [','] + b, ',') == segs;
    assert segs[1..] == [b] && [b][1..] == [];
    assert DecodeSegments([b]) == Some([DecodeWager(b).value] + DecodeSegments([b][1..]).value);
    assert DecodeSegments(segs) == Some([DecodeWager(a).value] + DecodeSegments([b]).value);
    assert [DecodeWager(a).value] + DecodeSegments([b]).value == [DecodeWager(a).value, DecodeWager(b).value];
    assert DecodeWagers(a + [','] + b) == DecodeSegments(segs);
  }

  /** The batch text "1-50,3-50" decodes to chip 1 and chip 3, fifty each. */
  lemma DecodeUnderOverBatch()
    ensures DecodeWagers("1-50,3-50") == Some([BetData(50, 1), BetData(50, 3)])
  {
    DecodeFiftySegment("1-50", '1');
    DecodeFiftySegment("3-50", '3');
    assert Text.DigitValue('1') == 1 && Text.DigitValue('3') == 3;
    DecodeTwoSegments("1-50", "3-50");
    assert "1-50,3-50" == "1-50" + [','] + "3-50";
  }

  /** The batch "1-50,3-50" is refused at validation; no debit is attempted. */
  lemma UnderOverBatchRefused(cfg: Config, lobbies: map<string, LobbyData>, book: Book,
                              player: Option<PlayerDetails>, roundRef: Option<string>,
                              handshake: Outcome.Handshake, debit: DebitReply)
    ensures var r := PlaceBet(cfg, lobbies, book, player, roundRef,
                              DecodeWagers("1-50,3-50"), handshake, debit);
            !r.Placed? && r != Rejected(CancelledUpstream)
    ensures var r := PlaceBet(cfg, lobbies, book, player, roundRef,
                              DecodeWagers("1-50,3-50"), handshake, debit);
            r == Rejected(InvalidPlayerDetails) || r == Rejected(InvalidBet) || r == Aborted
    ensures player.Some? && roundRef.Some? && LookupLobby(lobbies, roundRef.value).Some? ==>
              PlaceBet(cfg, lobbies, book, player, roundRef, DecodeWagers("1-50,3-50"), handshake, debit)
                == Rejected(InvalidBet)
    ensures player.Some? && roundRef.Some?
            && !LookupThrows(cfg, LookupLobby(lobbies, roundRef.value), [BetData(50, 1), BetData(50, 3)]) ==>
              PlaceBet(cfg, lobbies, book, player, roundRef, DecodeWagers("1-50,3-50"), handshake, debit)
                == Rejected(InvalidBet)
  {
    var ws := [BetData(50, 1), BetData(50, 3)];
    DecodeUnderOverBatch();
    assert Chips(ws)[0] == 1 && Chips(ws)[1] == 3;
    UnderWithOverRefused(cfg, lobbies, book, player, roundRef, Some(ws), handshake, debit);
  }
}

=== FILE: lobby.dfy ===
/** The per-lobby round scheduler: every lobby slot repeats the same fixed
    sequence of phases forever. One round is modelled as the trace of what
    the scheduler does, each step tagged with the lobby status in force
    while it happens. Waiting is a `Pause` step; the random outcome is an
    input drawn before betting opens. */
module Lobby {
  import opened Wrappers
  import Text
  import Outcome
  import Bets

  /** The lobby slots the server runs. */
  const Slots: seq<string> := ["101", "102", "103"]

  /** The first betting-countdown tick (the countdown runs from it down to
      0, one second each) and the number of closing ticks. */
  const StartDelay: nat := 15
  const EndDelay: nat := 3

  /** Milliseconds slot `id` waits before its first round. */
  function StartStagger(id: nat): (ms: nat)
    ensures ms % 5000 == 0 && ms < 500000
  {
    5000 * (id % 100)
  }

  /** Two slots start together exactly when their numbers agree modulo 100. */
  lemma StaggersCoincide(a: nat, b: nat)
    ensures StartStagger(a) == StartStagger(b) <==> a % 100 == b % 100
  {
  }

  /** Slots 101, 102 and 103 start 5, 10 and 15 seconds after launch. */
  lemma SlotsStartStaggered()
    ensures forall i :: 0 <= i < |Slots| ==>
              Text.ParseNat(Slots[i]).Some? && StartStagger(Text.ParseNat(Slots[i]).value) == 5000 * (i + 1)
  {
    assert Text.DigitsValue("1") == 1 by { assert "1"[..0] == ""; }
    assert Text.DigitsValue("10") == 10 by { assert "10"[..1] == "1"; }
    assert Text.DigitsValue("101") == 101 by { assert "101"[..2] == "10"; }
    assert Text.DigitsValue("102") == 102 by { assert "102"[..2] == "10"; }
    assert Text.DigitsValue("103") == 103 by { assert "103"[..2] == "10"; }
  }

  /** `<timestamp>-<slot>`: the id of a round started at `timestamp`. */
  function RoundId(timestamp: nat, slot: string): (id: string)
    ensures '-' !in slot ==> Bets.LobbyNo(id) == Some(slot)
    ensures '-' !in slot ==> Text.ParseNat(Text.Split(id, '-')[0]) == Some(timestamp)
  {
    var id := Text.Join([Text.NatToString(timestamp), slot], '-');
    Text.NatToStringNoSeparator(timestamp, '-');
    Text.ParseNatToString(timestamp);
    if '-' !in slot then
      Text.SplitJoin([Text.NatToString(timestamp), slot], '-');
      id
    else id
  }

  /** Rounds of one slot started at different times have different ids, so
      each round's bets are kept under their own key. */
  lemma RoundIdsDistinct(t1: nat, t2: nat, slot: string)
    requires '-' !in slot && t1 != t2
    ensures RoundId(t1, slot) != RoundId(t2, slot)
  {
  }

  // ---------------------------------------------------------------------
  // The trace of one round

  /** The `cards` broadcasts to the lobby's room. */
  datatype Card =
    | Starting(tick: int)
    | Calculating
    | ShowResult(result: Outcome.GameRoundResult)
    | Ended(tick: int, result: Outcome.GameRoundResult)

  /** The round summary broadcast as `history` and stored. */
  datatype HistoryRecord = HistoryRecord(lobbyId: string, startDelay: nat, endDelay: nat,
                                         result: Outcome.GameRoundResult, status: int)

  datatype Event =
    | SetLobby                                  // publish (round id, status) for the slot
    | Cards(roundId: string, card: Card)     // `<round id>:<card>` to the slot's room
    | Pause(ms: nat)
    | SettleRound(roundId: string, result: Outcome.GameRoundResult)  // settle the bets booked under the round id
    | RecordHistory(record: HistoryRecord)

  /** One scheduler action, with the lobby status in force while it runs. */
  datatype Step = Step(status: int, event: Event)

  /** Countdown ticks `x`, `x - 1`, ..., 0, each followed by a one-second pause. */
  function Countdown(id: string, x: nat): (steps: seq<Step>)
    ensures |steps| == 2 * (x + 1)
  {
    seq(2 * (x + 1), i => if i % 2 == 0 then Step(0, Cards(id, Starting(x - i / 2))) else Step(0, Pause(1000)))
  }

  /** Closing ticks `z`, `z + 1`, ..., `n`, each followed by a one-second pause. */
  function Closing(id: string, z: nat, n: nat, result: Outcome.GameRoundResult): (steps: seq<Step>)
    ensures |steps| == if z <= n then 2 * (n - z + 1) else 0
  {
    seq(if z <= n then 2 * (n - z + 1) else 0,
        i => if i % 2 == 0 then Step(3, Cards(id, Ended(z + i / 2, result))) else Step(3, Pause(1000)))
  }

  /** The countdown is its first tick and pause followed by the shorter countdown. */
  lemma CountdownUnroll(id: string, x: nat)
    ensures Countdown(id, x) == [Step(0, Cards(id, Starting(x)))]
                                + ([Step(0, Pause(1000))] + (if x == 0 then [] else Countdown(id, x - 1)))
  {
  }

  lemma ClosingUnroll(id: string, z: nat, n: nat, result: Outcome.GameRoundResult)
    requires z <= n
    ensures Closing(id, z, n, result)
            == [Step(3, Cards(id, Ended(z, result)))] + ([Step(3, Pause(1000))] + Closing(id, z + 1, n, result))
  {
  }

  function BettingPhase(id: string): seq<Step> {
    [Step(0, SetLobby)] + Countdown(id, StartDelay)
  }

  function CalculatingPhase(id: string): seq<Step> {
    [Step(1, SetLobby), Step(1, Cards(id, Calculating)), Step(1, Pause(3000))]
  }

  function ResultPhase(id: string, result: Outcome.GameRoundResult): seq<Step> {
    [Step(2, SetLobby), Step(2, Cards(id, ShowResult(result))), Step(2, Pause(8000)), Step(2, SettleRound(id, result))]
  }

  function EndedPhase(id: string, result: Outcome.GameRoundResult): seq<Step> {
    [Step(3, SetLobby)] + Closing(id, 1, EndDelay, result)
    + [Step(3, RecordHistory(HistoryRecord(id, StartDelay, EndDelay, result, 3)))]
  }

  /** One round with id `id` and the drawn outcome `result`. */
  function Round(id: string, result: Outcome.GameRoundResult): (steps: seq<Step>)
    ensures |steps| == 48
  {
    BettingPhase(id) + CalculatingPhase(id) + ResultPhase(id, result) + EndedPhase(id, result)
  }

  /** One full round of slot `slot` started at `timestamp` with the drawn
      outcome `result`; the next round starts afresh afterwards. */
  function RoundTrace(slot: string, timestamp: nat, result: Outcome.GameRoundResult): (steps: seq<Step>)
    ensures |steps| == 48
  {
    Round(RoundId(timestamp, slot), result)
  }

  // ---------------------------------------------------------------------
  // Observations of a trace

  /** The steps of a trace that view `v` shows, in order. */
  function Filter(steps: seq<Step>, v: View): (r: seq<Step>)
    ensures |r| <= |steps|
  {
    if |steps| == 0 then []
    else Keep(steps[0], v) + Filter(steps[1..], v)
  }

  function Keep(s: Step, v: View): seq<Step> {
    if Shows(v, s) then [s] else []
  }

  lemma FilterCons(s: Step, rest: seq<Step>, v: View)
    ensures Filter([s] + rest, v) == Keep(s, v) + Filter(rest, v)
  {
    assert ([s] + rest)[1..] == rest;
  }

  /** A view keeps exactly the steps it shows: everything kept is shown and
      comes from the trace, and every shown step of the trace is kept. */
  lemma {:induction false} FilterKeepsShown(steps: seq<Step>, v: View)
    ensures forall i :: 0 <= i < |Filter(steps, v)| ==>
              Shows(v, Filter(steps, v)[i]) && Filter(steps, v)[i] in steps
    ensures forall i :: 0 <= i < |steps| && Shows(v, steps[i]) ==> steps[i] in Filter(steps, v)
    decreases |steps|
  {
    if |steps| > 0 {
      FilterKeepsShown(steps[1..], v);
      var r := Filter(steps, v);
      var rest := Filter(steps[1..], v);
      assert r == Keep(steps[0], v) + rest;
      assert forall i :: 1 <= i < |steps| ==> steps[i] == steps[1..][i - 1];
    }
  }

  lemma {:induction false} FilterAppend(a: seq<Step>, b: seq<Step>, v: View)
    ensures Filter(a + b, v) == Filter(a, v) + Filter(b, v)
    decreases |a|
  {
    if |a| > 0 {
      assert a + b == [a[0]] + (a[1..] + b);
      assert a == [a[0]] + a[1..];
      FilterCons(a[0], a[1..] + b, v);
      FilterCons(a[0], a[1..], v);
      FilterAppend(a[1..], b, v);
    } else {
      assert a + b == b;
    }
  }

  /** Filtering a three- or four-step block, one step at a time. */
  lemma Filter3(s0: Step, s1: Step, s2: Step, v: View)
    ensures Filter([s0, s1, s2], v) == Keep(s0, v) + Keep(s1, v) + Keep(s2, v)
  {
    assert [s0, s1, s2] == [s0] + ([s1] + ([s2] + []));
    FilterCons(s0, [s1] + ([s2] + []), v);
    FilterCons(s1, [s2] + [], v);
    FilterCons(s2, [], v);
  }

  lemma Filter4(s0: Step, s1: Step, s2: Step, s3: Step, v: View)
    ensures Filter([s0, s1, s2, s3], v) == Keep(s0, v) + Keep(s1, v) + Keep(s2, v) + Keep(s3, v)
  {
    assert [s0, s1, s2, s3] == [s0] + [s1, s2, s3];
    FilterCons(s0, [s1, s2, s3], v);
    Filter3(s1, s2, s3, v);
  }

  /** The kinds of step an observer of the round can single out. */
  datatype View =
    | StatusChanges     // the (round id, status) publications
    | StartingTicks     // the countdown broadcasts
    | EndedTicks        // the closing broadcasts
    | Milestones        // everything except ticks and pauses

  predicate Shows(v: View, s: Step) {
    match v
    case StatusChanges => s.event.SetLobby?
    case StartingTicks => s.event.Cards? && s.event.card.Starting?
    case EndedTicks => s.event.Cards? && s.event.card.Ended?
    case Milestones => !s.event.Pause? && !(s.event.Cards? && (s.event.card.Starting? || s.event.card.Ended?))
  }

  /** The outcome an event carries, if any. */
  function ResultIn(e: Event): Option<Outcome.GameRoundResult> {
    match e
    case Cards(_, ShowResult(r)) => Some(r)
    case Cards(_, Ended(_, r)) => Some(r)
    case SettleRound(_, r) => Some(r)
    case RecordHistory(h) => Some(h.result)
    case _ => None
  }

  function PauseOf(s: Step): nat {
    if s.event.Pause? then s.event.ms else 0
  }

  function TotalPause(steps: seq<Step>): nat {
    if |steps| == 0 then 0 else PauseOf(steps[0]) + TotalPause(steps[1..])
  }

  lemma TotalPauseCons(s: Step, rest: seq<Step>)
    ensures TotalPause([s] + rest) == PauseOf(s) + TotalPause(rest)
  {
    assert ([s] + rest)[1..] == rest;
  }

  lemma {:induction false} TotalPauseAppend(a: seq<Step>, b: seq<Step>)
    ensures TotalPause(a + b) == TotalPause(a) + TotalPause(b)
    decreases |a|
  {
    if |a| > 0 {
      assert a + b == [a[0]] + (a[1..] + b);
      assert a == [a[0]] + a[1..];
      TotalPauseCons(a[0], a[1..] + b);
      TotalPauseCons(a[0], a[1..]);
      TotalPauseAppend(a[1..], b);
    } else {
      assert a + b == b;
    }
  }

  predicate Monotone(steps: seq<Step>) {
    forall i, j :: 0 <= i <= j < |steps| ==> steps[i].status <= steps[j].status
  }

  // ---------------------------------------------------------------------
  // The countdown and the closing sequence

  /** A block in which `v` shows no step filters to nothing. */
  lemma {:induction false} FilterNone(steps: seq<Step>, v: View)
    requires forall i :: 0 <= i < |steps| ==> !Shows(v, steps[i])
    ensures Filter(steps, v) == []
    decreases |steps|
  {
    if |steps| > 0 {
      FilterNone(steps[1..], v);
    }
  }

  lemma TicksDown(id: string, x: nat)
    requires x > 0
    ensures [Step(0, Cards(id, Starting(x)))] + seq(x, i => Step(0, Cards(id, Starting(x - 1 - i))))
            == seq(x + 1, i => Step(0, Cards(id, Starting(x - i))))
  {
  }

  lemma TicksUp(id: string, z: nat, n: nat, result: Outcome.GameRoundResult)
    requires z <= n
    ensures [Step(3, Cards(id, Ended(z, result)))] + seq(n - z, i => Step(3, Cards(id, Ended(z + 1 + i, result))))
            == seq(n + 1 - z, i => Step(3, Cards(id, Ended(z + i, result))))
  {
  }

  /** The countdown shows the ticks `x` down to 0, in that order, and nothing else. */
  lemma {:induction false} CountdownTicks(id: string, x: nat)
    ensures Filter(Countdown(id, x), StartingTicks) == seq(x + 1, i => Step(0, Cards(id, Starting(x - i))))
    decreases x
  {
    var s0, s1 := Step(0, Cards(id, Starting(x))), Step(0, Pause(1000));
    var tail := if x == 0 then [] else Countdown(id, x - 1);
    CountdownUnroll(id, x);
    FilterCons(s0, [s1] + tail, StartingTicks);
    FilterCons(s1, tail, StartingTicks);
    assert Filter(Countdown(id, x), StartingTicks) == [s0] + Filter(tail, StartingTicks);
    if x == 0 {
      assert seq(1, i => Step(0, Cards(id, Starting(0 - i)))) == [s0];
    } else {
      CountdownTicks(id, x - 1);
      TicksDown(id, x);
    }
  }

  lemma CountdownQuiet(id: string, x: nat)
    ensures Filter(Countdown(id, x), EndedTicks) == []
    ensures Filter(Countdown(id, x), StatusChanges) == []
    ensures Filter(Countdown(id, x), Milestones) == []
  {
    FilterNone(Countdown(id, x), EndedTicks);
    FilterNone(Countdown(id, x), StatusChanges);
    FilterNone(Countdown(id, x), Milestones);
  }

  lemma {:induction false} CountdownPause(id: string, x: nat)
    ensures TotalPause(Countdown(id, x)) == 1000 * (x + 1)
    decreases x
  {
    var s0, s1 := Step(0, Cards(id, Starting(x))), Step(0, Pause(1000));
    var tail := if x == 0 then [] else Countdown(id, x - 1);
    CountdownUnroll(id, x);
    TotalPauseCons(s0, [s1] + tail);
    TotalPauseCons(s1, tail);
    if x > 0 {
      CountdownPause(id, x - 1);
    }
  }

  /** The closing sequence shows the ticks `z` up to `n`, in that order, and nothing else. */
  lemma {:induction false} ClosingTicks(id: string, z: nat, n: nat, result: Outcome.GameRoundResult)
    requires z <= n + 1
    ensures Filter(Closing(id, z, n, result), EndedTicks) == seq(n + 1 - z, i => Step(3, Cards(id, Ended(z + i, result))))
    decreases n - z + 1
  {
    if z <= n {
      var s0, s1 := Step(3, Cards(id, Ended(z, result))), Step(3, Pause(1000));
      var tail := Closing(id, z + 1, n, result);
      ClosingUnroll(id, z, n, result);
      FilterCons(s0, [s1] + tail, EndedTicks);
      FilterCons(s1, tail, EndedTicks);
      assert Filter(Closing(id, z, n, result), EndedTicks) == [s0] + Filter(tail, EndedTicks);
      ClosingTicks(id, z + 1, n, result);
      TicksUp(id, z, n, result);
    }
  }

  lemma ClosingQuiet(id: string, z: nat, n: nat, result: Outcome.GameRoundResult)
    ensures Filter(Closing(id, z, n, result), StartingTicks) == []
    ensures Filter(Closing(id, z, n, result), StatusChanges) == []
    ensures Filter(Closing(id, z, n, result), Milestones) == []
  {
    FilterNone(Closing(id, z, n, result), StartingTicks);
    FilterNone(Closing(id, z, n, result), StatusChanges);
    FilterNone(Closing(id, z, n, result), Milestones);
  }

  lemma {:induction false} ClosingPause(id: string, z: nat, n: nat, result: Outcome.GameRoundResult)
    requires z <= n + 1
    ensures TotalPause(Closing(id, z, n, result)) == 1000 * (n + 1 - z)
    decreases n - z + 1
  {
    if z <= n {
      var s0, s1 := Step(3, Cards(id, Ended(z, result))), Step(3, Pause(1000));
      var tail := Closing(id, z + 1, n, result);
      ClosingUnroll(id, z, n, result);
      TotalPauseCons(s0, [s1] + tail);
      TotalPauseCons(s1, tail);
      ClosingPause(id, z + 1, n, result);
    }
  }

  // ---------------------------------------------------------------------
  // Properties of a round

  lemma FilterRound(b: seq<Step>, c: seq<Step>, r: seq<Step>, e: seq<Step>, v: View)
    ensures Filter(b + c + r + e, v) == Filter(b, v) + Filter(c, v) + Filter(r, v) + Filter(e, v)
  {
    FilterAppend(b, c, v);
    FilterAppend(b + c, r, v);
    FilterAppend(b + c + r, e, v);
  }

  lemma FilterBetting(id: string, v: View)
    ensures Filter(BettingPhase(id), v) == Keep(Step(0, SetLobby), v) + Filter(Countdown(id, StartDelay), v)
  {
    FilterCons(Step(0, SetLobby), Countdown(id, StartDelay), v);
  }

  lemma FilterEnded(id: string, result: Outcome.GameRoundResult, v: View)
    ensures Filter(EndedPhase(id, result), v)
            == Keep(Step(3, SetLobby), v) + Filter(Closing(id, 1, EndDelay, result), v)
               + Keep(Step(3, RecordHistory(HistoryRecord(id, StartDelay, EndDelay, result, 3))), v)
  {
    var h := Step(3, RecordHistory(HistoryRecord(id, StartDelay, EndDelay, result, 3)));
    var c := Closing(id, 1, EndDelay, result);
    FilterCons(Step(3, SetLobby), c, v);
    FilterAppend([Step(3, SetLobby)] + c, [h], v);
    FilterCons(h, [], v);
  }

  /** What each view keeps of each phase. */
  lemma SetLobbyPerPhase(id: string, result: Outcome.GameRoundResult)
    ensures Filter(BettingPhase(id), StatusChanges) == [Step(0, SetLobby)]
    ensures Filter(CalculatingPhase(id), StatusChanges) == [Step(1, SetLobby)]
    ensures Filter(ResultPhase(id, result), StatusChanges) == [Step(2, SetLobby)]
    ensures Filter(EndedPhase(id, result), StatusChanges) == [Step(3, SetLobby)]
  {
    FilterBetting(id, StatusChanges);
    CountdownQuiet(id, StartDelay);
    var c, r := CalculatingPhase(id), ResultPhase(id, result);
    Filter3(c[0], c[1], c[2], StatusChanges);
    Filter4(r[0], r[1], r[2], r[3], StatusChanges);
    FilterEnded(id, result, StatusChanges);
    ClosingQuiet(id, 1, EndDelay, result);
  }

  lemma StartingPerPhase(id: string, result: Outcome.GameRoundResult)
    ensures Filter(BettingPhase(id), StartingTicks) == seq(StartDelay + 1, i => Step(0, Cards(id, Starting(15 - i))))
    ensures Filter(CalculatingPhase(id), StartingTicks) == []
    ensures Filter(ResultPhase(id, result), StartingTicks) == []
    ensures Filter(EndedPhase(id, result), StartingTicks) == []
  {
    FilterBetting(id, StartingTicks);
    CountdownTicks(id, StartDelay);
    var c, r := CalculatingPhase(id), ResultPhase(id, result);
    Filter3(c[0], c[1], c[2], StartingTicks);
    Filter4(r[0], r[1], r[2], r[3], StartingTicks);
    FilterEnded(id, result, StartingTicks);
    ClosingQuiet(id, 1, EndDelay, result);
  }

  lemma EndedPerPhase(id: string, result: Outcome.GameRoundResult)
    ensures Filter(BettingPhase(id), EndedTicks) == []
    ensures Filter(CalculatingPhase(id), EndedTicks) == []
    ensures Filter(ResultPhase(id, result), EndedTicks) == []
    ensures Filter(EndedPhase(id, result), EndedTicks)
            == [Step(3, Cards(id, Ended(1, result))), Step(3, Cards(id, Ended(2, result))), Step(3, Cards(id, Ended(3, result)))]
  {
    FilterBetting(id, EndedTicks);
    CountdownQuiet(id, StartDelay);
    var c, r := CalculatingPhase(id), ResultPhase(id, result);
    Filter3(c[0], c[1], c[2], EndedTicks);
    Filter4(r[0], r[1], r[2], r[3], EndedTicks);
    FilterEnded(id, result, EndedTicks);
    ClosingTicks(id, 1, EndDelay, result);
    assert seq(EndDelay, i => Step(3, Cards(id, Ended(1 + i, result))))
           == [Step(3, Cards(id, Ended(1, result))), Step(3, Cards(id, Ended(2, result))), Step(3, Cards(id, Ended(3, result)))];
  }

  lemma MilestonePerPhase(id: string, result: Outcome.GameRoundResult)
    ensures Filter(BettingPhase(id), Milestones) == [Step(0, SetLobby)]
    ensures Filter(CalculatingPhase(id), Milestones) == [Step(1, SetLobby), Step(1, Cards(id, Calculating))]
    ensures Filter(ResultPhase(id, result), Milestones)
            == [Step(2, SetLobby), Step(2, Cards(id, ShowResult(result))), Step(2, SettleRound(id, result))]
    ensures Filter(EndedPhase(id, result), Milestones)
            == [Step(3, SetLobby), Step(3, RecordHistory(HistoryRecord(id, StartDelay, EndDelay, result, 3)))]
  {
    FilterBetting(id, Milestones);
    CountdownQuiet(id, StartDelay);
    var c, r := CalculatingPhase(id), ResultPhase(id, result);
    Filter3(c[0], c[1], c[2], Milestones);
    Filter4(r[0], r[1], r[2], r[3], Milestones);
    FilterEnded(id, result, Milestones);
    ClosingQuiet(id, 1, EndDelay, result);
  }

  /** The lobby status moves 0, 1, 2, 3, each published exactly once. */
  lemma PhasesInOrder(id: string, result: Outcome.GameRoundResult)
    ensures var t := Round(id, result);
            && t[0] == Step(0, SetLobby)
            && Filter(t, StatusChanges) == [Step(0, SetLobby), Step(1, SetLobby), Step(2, SetLobby), Step(3, SetLobby)]
  {
    FilterRound(BettingPhase(id), CalculatingPhase(id), ResultPhase(id, result), EndedPhase(id, result), StatusChanges);
    SetLobbyPerPhase(id, result);
  }

  /** The betting countdown shows exactly 16 ticks, 15 down to 0. */
  lemma CountdownSixteenTicks(id: string, result: Outcome.GameRoundResult)
    ensures Filter(Round(id, result), StartingTicks)
            == seq(StartDelay + 1, i => Step(0, Cards(id, Starting(15 - i))))
  {
    FilterRound(BettingPhase(id), CalculatingPhase(id), ResultPhase(id, result), EndedPhase(id, result), StartingTicks);
    StartingPerPhase(id, result);
  }

  /** The ended phase shows exactly 3 ticks, numbered 1 to 3, each carrying
      the round's outcome. */
  lemma ClosingThreeTicks(id: string, result: Outcome.GameRoundResult)
    ensures Filter(Round(id, result), EndedTicks)
            == [Step(3, Cards(id, Ended(1, result))), Step(3, Cards(id, Ended(2, result))), Step(3, Cards(id, Ended(3, result)))]
  {
    FilterRound(BettingPhase(id), CalculatingPhase(id), ResultPhase(id, result), EndedPhase(id, result), EndedTicks);
    EndedPerPhase(id, result);
  }

  /** Without ticks and pauses a round is: open (0), lock (1) with the
      calculating notice, result (2) with the outcome shown and then
      settled, end (3), history. Settlement runs once, after the outcome is
      shown and before the lobby leaves status 2, on the same outcome. */
  lemma MilestonesInOrder(id: string, result: Outcome.GameRoundResult)
    ensures Filter(Round(id, result), Milestones)
            == [Step(0, SetLobby),
                Step(1, SetLobby), Step(1, Cards(id, Calculating)),
                Step(2, SetLobby), Step(2, Cards(id, ShowResult(result))), Step(2, SettleRound(id, result)),
                Step(3, SetLobby),
                Step(3, RecordHistory(HistoryRecord(id, StartDelay, EndDelay, result, 3)))]
  {
    FilterRound(BettingPhase(id), CalculatingPhase(id), ResultPhase(id, result), EndedPhase(id, result), Milestones);
    MilestonePerPhase(id, result);
  }

  lemma BettingPause(id: string)
    ensures TotalPause(BettingPhase(id)) == 16000
  {
    CountdownPause(id, StartDelay);
    TotalPauseCons(Step(0, SetLobby), Countdown(id, StartDelay));
  }

  lemma CalculatingPause(id: string)
    ensures TotalPause(CalculatingPhase(id)) == 3000
  {
    var c := CalculatingPhase(id);
    assert c == [c[0]] + ([c[1]] + ([c[2]] + []));
    TotalPauseCons(c[0], [c[1]] + ([c[2]] + []));
    TotalPauseCons(c[1], [c[2]] + []);
    TotalPauseCons(c[2], []);
  }

  lemma ResultPause(id: string, result: Outcome.GameRoundResult)
    ensures TotalPause(ResultPhase(id, result)) == 8000
  {
    var r := ResultPhase(id, result);
    assert r == [r[0]] + ([r[1]] + ([r[2]] + ([r[3]] + [])));
    TotalPauseCons(r[0], [r[1]] + ([r[2]] + ([r[3]] + [])));
    TotalPauseCons(r[1], [r[2]] + ([r[3]] + []));
    TotalPauseCons(r[2], [r[3]] + []);
    TotalPauseCons(r[3], []);
  }

  lemma EndedPause(id: string, result: Outcome.GameRoundResult)
    ensures TotalPause(EndedPhase(id, result)) == 3000
  {
    var h := Step(3, RecordHistory(HistoryRecord(id, StartDelay, EndDelay, result, 3)));
    ClosingPause(id, 1, EndDelay, result);
    TotalPauseCons(Step(3, SetLobby), Closing(id, 1, EndDelay, result));
    TotalPauseAppend([Step(3, SetLobby)] + Closing(id, 1, EndDelay, result), [h]);
    TotalPauseCons(h, []);
  }

  /** A round waits 16 + 3 + 8 + 3 = 30 seconds, plus the time settlement takes. */
  lemma RoundTakesThirtySeconds(id: string, result: Outcome.GameRoundResult)
    ensures TotalPause(Round(id, result)) == 30000
  {
    BettingPause(id);
    CalculatingPause(id);
    ResultPause(id, result);
    EndedPause(id, result);
    var b, c, r := BettingPhase(id), CalculatingPhase(id), ResultPhase(id, result);
    TotalPauseAppend(b, c);
    TotalPauseAppend(b + c, r);
    TotalPauseAppend(b + c + r, EndedPhase(id, result));
  }

  // ---------------------------------------------------------------------
  // Step by step

  /** Where step `k` of a round comes from. */
  lemma StepIn(id: string, result: Outcome.GameRoundResult, k: nat)
    requires k < 48
    ensures var t := Round(id, result);
            && (k < 33 ==> t[k] == BettingPhase(id)[k])
            && (33 <= k < 36 ==> t[k] == CalculatingPhase(id)[k - 33])
            && (36 <= k < 40 ==> t[k] == ResultPhase(id, result)[k - 36])
            && (40 <= k ==> t[k] == EndedPhase(id, result)[k - 40])
  {
    var b := BettingPhase(id);
    var pre := b + CalculatingPhase(id);
    var pre2 := pre + ResultPhase(id, result);
    assert |b| == 33 && |pre| == 36 && |pre2| == 40;
  }

  /** A betting-phase step publishes status 0, or is a countdown tick or a pause. */
  lemma BettingStep(id: string, k: nat)
    requires k < 33
    ensures BettingPhase(id)[k].status == 0
    ensures ResultIn(BettingPhase(id)[k].event) == None && BettingPhase(id)[k].event != Cards(id, Calculating)
  {
    if k > 0 {
      assert BettingPhase(id)[k] == Countdown(id, StartDelay)[k - 1];
    }
  }

  /** An ended-phase step carries the round's outcome or none. */
  lemma EndedStep(id: string, result: Outcome.GameRoundResult, k: nat)
    requires k < 8
    ensures EndedPhase(id, result)[k].status == 3
    ensures ResultIn(EndedPhase(id, result)[k].event) in {None, Some(result)}
  {
    if 0 < k < 7 {
      assert EndedPhase(id, result)[k] == Closing(id, 1, EndDelay, result)[k - 1];
    }
  }

  /** The status in force at step `k` of a round. */
  function StatusAt(k: nat): (status: int)
    ensures 0 <= status <= 3
  {
    if k < 33 then 0 else if k < 36 then 1 else if k < 40 then 2 else 3
  }

  lemma StepStatus(id: string, result: Outcome.GameRoundResult, k: nat)
    requires k < 48
    ensures Round(id, result)[k].status == StatusAt(k)
  {
    StepIn(id, result, k);
    if k < 33 {
      BettingStep(id, k);
    } else if k >= 40 {
      EndedStep(id, result, k - 40);
    }
  }

  /** The status never goes back within a round. */
  lemma StatusNeverDecreases(id: string, result: Outcome.GameRoundResult)
    ensures Monotone(Round(id, result))
  {
    var t := Round(id, result);
    forall k | 0 <= k < |t|
      ensures t[k].status == StatusAt(k)
    {
      StepStatus(id, result, k);
    }
  }

  /** Every step that mentions an outcome mentions the one drawn for the round. */
  lemma OneOutcomePerRound(id: string, result: Outcome.GameRoundResult)
    ensures var t := Round(id, result);
            forall k :: 0 <= k < |t| ==> ResultIn(t[k].event) in {None, Some(result)}
  {
    var t := Round(id, result);
    forall k | 0 <= k < |t|
      ensures ResultIn(t[k].event) in {None, Some(result)}
    {
      StepIn(id, result, k);
      if k < 33 {
        BettingStep(id, k);
      } else if k >= 40 {
        EndedStep(id, result, k - 40);
      }
    }
  }

  // ---------------------------------------------------------------------
  // The round check against the trace

  /** A round of slot `slot` started at `timestamp` runs under that slot's
      round id, publishes the statuses 0, 1, 2, 3 in order, and settles the
      drawn outcome under that id, which names the slot back. */
  lemma RoundTraceOfSlot(slot: string, timestamp: nat, result: Outcome.GameRoundResult)
    requires '-' !in slot
    ensures var t := RoundTrace(slot, timestamp, result);
            && Filter(t, StatusChanges) == [Step(0, SetLobby), Step(1, SetLobby), Step(2, SetLobby), Step(3, SetLobby)]
            && t[37] == Step(2, Cards(RoundId(timestamp, slot), ShowResult(result)))
            && t[39] == Step(2, SettleRound(RoundId(timestamp, slot), result))
            && Bets.LobbyNo(RoundId(timestamp, slot)) == Some(slot)
  {
    var id := RoundId(timestamp, slot);
    PhasesInOrder(id, result);
    LateBetPassesRoundCheck(id, result);
  }

  /** As written, the round check lets a bet on the current round through
      while the lobby shows the outcome and waits to settle: the outcome is
      public from step 37, the lobby is in status 2, and settlement runs at
      step 39. */
  lemma LateBetPassesRoundCheck(id: string, result: Outcome.GameRoundResult)
    ensures var t := Round(id, result);
            && t[37] == Step(2, Cards(id, ShowResult(result)))
            && t[38].status == 2 && t[39] == Step(2, SettleRound(id, result))
            && !Bets.RoundRejected(Bets.LobbyData(id, t[38].status), id)
            && Bets.RoundRejectedIntended(Bets.LobbyData(id, t[38].status), id)
  {
    StepIn(id, result, 37);
    StepIn(id, result, 38);
    StepIn(id, result, 39);
  }

  /** With the intended check, a bet passes at step `k` only if it names
      the current round and no step up to `k` has locked the lobby or shown
      the outcome. */
  lemma IntendedCheckOnlyWhileBetting(id: string, result: Outcome.GameRoundResult,
                                      k: nat, roundRef: string)
    requires k < 48
    requires !Bets.RoundRejectedIntended(
               Bets.LobbyData(id, Round(id, result)[k].status), roundRef)
    ensures roundRef == id
    ensures forall j :: 0 <= j <= k ==>
              Round(id, result)[j].status == 0
              && Round(id, result)[j].event != Cards(id, Calculating)
              && ResultIn(Round(id, result)[j].event) == None
  {
    var t := Round(id, result);
    StepStatus(id, result, k);
    forall j | 0 <= j <= k
      ensures t[j].status == 0 && t[j].event != Cards(id, Calculating) && ResultIn(t[j].event) == None
    {
      StepIn(id, result, j);
      BettingStep(id, j);
    }
  }
}

=== FILE: outcome.dfy ===
/** The game's pure rules from the helper module: classifying two dice into
    a winning category, paying one chip wager against that category, and
    reading the client's address from the connection handshake. */
module Outcome {
  import opened Wrappers
  import Text

  /** One face of a six-sided die. The random draw itself is an input. */
  type Die = d: int | 1 <= d <= 6 witness 1

  /** The round outcome announced to players and handed to settlement:
      the two faces as `"<d1>-<d2>"`, their sum, and the winning category. */
  datatype GameRoundResult = GameRoundResult(resultDiceComb: string, resultDiceSum: int, winner: int)

  /** Decodes the `"<d1>-<d2>"` combination text back into the two faces. */
  function DecodeComb(comb: string): Option<(nat, nat)> {
    var parts := Text.Split(comb, '-');
    if |parts| == 2 && Text.ParseNat(parts[0]).Some? && Text.ParseNat(parts[1]).Some? then
      Some((Text.ParseNat(parts[0]).value, Text.ParseNat(parts[1]).value))
    else None
  }

  /** The combination text for two faces. */
  function DiceComb(dice1: Die, dice2: Die): (comb: string)
    ensures DecodeComb(comb) == Some((dice1 as nat, dice2 as nat))
  {
    var a := Text.NatToString(dice1);
    var b := Text.NatToString(dice2);
    Text.NatToStringNoSeparator(dice1, '-');
    Text.NatToStringNoSeparator(dice2, '-');
    Text.SplitJoin([a, b], '-');
    Text.ParseNatToString(dice1);
    Text.ParseNatToString(dice2);
    Text.Join([a, b], '-')
  }

  /** The winning category of a dice total as the game computes it:
      1 ("seven down") below seven, 2 ("seven up") above seven, 3 ("exact
      seven") on seven. */
  function Classify(value: int): (winner: int)
    ensures winner == 1 <==> value < 7
    ensures winner == 2 <==> value > 7
    ensures winner == 3 <==> value == 7
  {
    if value < 7 then 1 else if value > 7 then 2 else 3
  }

  /** The outcome of a round: the two faces, their sum and its category. */
  function GetResult(dice1: Die, dice2: Die): (r: GameRoundResult)
    ensures r.winner == 1 <==> dice1 + dice2 < 7
    ensures r.winner == 2 <==> dice1 + dice2 > 7
    ensures r.winner == 3 <==> dice1 + dice2 == 7
    ensures r.winner in {1, 2, 3}
    ensures 2 <= r.resultDiceSum <= 12 && r.resultDiceSum == dice1 + dice2
    ensures DecodeComb(r.resultDiceComb) == Some((dice1 as nat, dice2 as nat))
  {
    var value := dice1 + dice2;
    GameRoundResult(DiceComb(dice1, dice2), value, Classify(value))
  }

  /** The classification the payout table and the chip-combination rule
      presuppose: 1 = under seven, 2 = exact seven (paid 5x), 3 = over seven. */
  function ClassifyIntended(value: int): (winner: int)
    ensures winner == 1 <==> value < 7
    ensures winner == 2 <==> value == 7
    ensures winner == 3 <==> value > 7
  {
    if value < 7 then 1 else if value == 7 then 2 else 3
  }

  function GetResultIntended(dice1: Die, dice2: Die): (r: GameRoundResult)
    ensures r.winner == 1 <==> dice1 + dice2 < 7
    ensures r.winner == 2 <==> dice1 + dice2 == 7
    ensures r.winner == 3 <==> dice1 + dice2 > 7
    ensures 2 <= r.resultDiceSum <= 12 && r.resultDiceSum == dice1 + dice2
    ensures DecodeComb(r.resultDiceComb) == Some((dice1 as nat, dice2 as nat))
  {
    var value := dice1 + dice2;
    GameRoundResult(DiceComb(dice1, dice2), value, ClassifyIntended(value))
  }

  datatype Status = Win | Loss

  /** The settled form of one chip wager. */
  datatype BetResult = BetResult(chip: int, betAmount: int, winAmount: int, mult: int, status: Status)

  function Min(a: int, b: int): int {
    if a <= b then a else b
  }

  /** The payout multiplier of a winning chip: 2 for chips 1 and 3, 5 otherwise. */
  function Multiplier(chip: int): (m: int)
    ensures m == 2 || m == 5
    ensures m == 2 <==> (chip == 1 || chip == 3)
  {
    if chip == 1 || chip == 3 then 2 else 5
  }

  /** Settles one wager of `betAmount` on `chip` against the round's
      `winner`; a winning payout is capped at `maxCashoutAmount`. */
  function GetBetResult(maxCashoutAmount: int, betAmount: int, chip: int, winner: int): (r: BetResult)
    ensures r.chip == chip && r.betAmount == betAmount
    ensures r.status == Win <==> chip == winner
    ensures r.mult > 0 <==> chip == winner
    ensures chip != winner ==> r.mult == 0 && r.winAmount == 0
    ensures chip == winner ==> r.mult == Multiplier(chip)
    ensures chip == winner ==> r.winAmount <= maxCashoutAmount && r.winAmount <= betAmount * r.mult
    ensures chip == winner ==> r.winAmount == maxCashoutAmount || r.winAmount == betAmount * r.mult
  {
    if chip == winner then
      var mult := Multiplier(chip);
      BetResult(chip, betAmount, Min(betAmount * mult, maxCashoutAmount), mult, Win)
    else
      BetResult(chip, betAmount, 0, 0, Loss)
  }

  // ---------------------------------------------------------------------
  // Expected return of each chip over the 36 equally likely dice pairs

  datatype Labelling = AsWritten | Intended

  /** The winning category of a dice pair under each labelling. */
  function WinnerOf(l: Labelling, dice1: Die, dice2: Die): int {
    match l
    case AsWritten => Classify(dice1 + dice2)
    case Intended => ClassifyIntended(dice1 + dice2)
  }

  /** Each labelling's category is the `winner` its result function announces. */
  lemma WinnerOfAgrees(dice1: Die, dice2: Die)
    ensures WinnerOf(AsWritten, dice1, dice2) == GetResult(dice1, dice2).winner
    ensures WinnerOf(Intended, dice1, dice2) == GetResultIntended(dice1, dice2).winner
  {
  }

  /** What a one-unit wager on `chip` pays back for one dice pair. */
  function UnitReturn(l: Labelling, chip: int, dice1: Die, dice2: Die): int {
    if WinnerOf(l, dice1, dice2) == chip then Multiplier(chip) else 0
  }

  /** The unit return is what settlement pays a one-unit wager whenever the
      cash-out cap does not bind. */
  lemma UnitReturnIsBetResult(l: Labelling, chip: int, dice1: Die, dice2: Die, maxCashoutAmount: int)
    requires maxCashoutAmount >= 5
    ensures UnitReturn(l, chip, dice1, dice2)
            == GetBetResult(maxCashoutAmount, 1, chip, WinnerOf(l, dice1, dice2)).winAmount
  {
  }

  function RowReturn(l: Labelling, chip: int, dice1: Die): int {
    UnitReturn(l, chip, dice1, 1) + UnitReturn(l, chip, dice1, 2) + UnitReturn(l, chip, dice1, 3)
    + UnitReturn(l, chip, dice1, 4) + UnitReturn(l, chip, dice1, 5) + UnitReturn(l, chip, dice1, 6)
  }

  /** Total paid back over all 36 dice pairs for one unit staked on each:
      a fair game pays 36, a house edge means less. */
  function ReturnOver36(l: Labelling, chip: int): int {
    RowReturn(l, chip, 1) + RowReturn(l, chip, 2) + RowReturn(l, chip, 3)
    + RowReturn(l, chip, 4) + RowReturn(l, chip, 5) + RowReturn(l, chip, 6)
  }

  /** As written, chip 2 wins on the fifteen sums above seven and is paid 5x,
      so it returns 75 units per 36 staked: the player has the edge. */
  lemma ChipTwoFavoursPlayerAsWritten()
    ensures ReturnOver36(AsWritten, 2) == 75 > 36
    ensures ReturnOver36(AsWritten, 1) == 30 && ReturnOver36(AsWritten, 3) == 12
  {
  }

  /** With 2 meaning "exact seven", every chip returns 30 units per 36 staked. */
  lemma HouseEdgeIntended(chip: int)
    requires chip in {1, 2, 3}
    ensures ReturnOver36(Intended, chip) == 30 < 36
  {
  }

  // ---------------------------------------------------------------------
  // Client address

  /** The parts of the connection handshake the address is read from:
      the `x-forwarded-for` header and the socket's remote address. */
  datatype Handshake = Handshake(forwardedFor: Option<string>, address: Option<string>)

  /** The first hop of a proxy chain: the first comma-separated entry, trimmed. */
  function FirstHop(header: string): (hop: string)
    ensures ',' !in hop
    ensures exists n :: 0 <= n <= |header| && ',' !in header[..n] && (n < |header| ==> header[n] == ',')
                        && hop == Text.Trim(header[..n])
    ensures ',' !in header ==> hop == Text.Trim(header)
  {
    var first := Text.Split(header, ',')[0];
    var hop := Text.Trim(first);
    Text.SplitHead(header, ',');
    assert ',' !in header ==> first == header by {
      if ',' !in header {
        Text.SplitNoSep(header, ',');
      }
    }
    assert forall k :: 0 <= k < |hop| ==> hop[k] == first[Text.LeadingSpace(first) + k];
    assert header[..|first|] == first;
    hop
  }

  /** The client address recorded with a bet: the first forwarded hop when
      the header is present and that hop is not blank, otherwise the socket
      address, otherwise the empty string. */
  function GetUserIP(h: Handshake): (ip: string)
    ensures h.forwardedFor.Some? && FirstHop(h.forwardedFor.value) != "" ==>
              ip == FirstHop(h.forwardedFor.value)
    ensures !(h.forwardedFor.Some? && FirstHop(h.forwardedFor.value) != "") ==>
              ip == h.address.GetOr("")
    ensures ip != h.address.GetOr("") ==>
              h.forwardedFor.Some? && ip == FirstHop(h.forwardedFor.value) && ip != ""
    ensures ',' in ip ==> ip == h.address.GetOr("")
  {
    if h.forwardedFor.Some? && h.forwardedFor.value != "" && FirstHop(h.forwardedFor.value) != "" then
      FirstHop(h.forwardedFor.value)
    else
      h.address.GetOr("")
  }

  /** A proxy chain `"<ip>,<rest>"` whose first entry is a clean address
      yields that address, whatever the socket address is. */
  lemma ForwardedAddressWins(ip: string, rest: string, address: Option<string>)
    requires ip != "" && ',' !in ip
    requires !Text.IsWhitespace(ip[0]) && !Text.IsWhitespace(ip[|ip| - 1])
    ensures GetUserIP(Handshake(Some(ip + "," + rest), address)) == ip
  {
    Text.SplitCons(ip, ',', rest);
    Text.TrimIdentity(ip);
  }

  /** A single-hop header is trimmed as a whole; with more hops only the
      text before the first comma counts. */
  lemma FirstHopOfChain(a: string, rest: string)
    requires ',' !in a
    ensures FirstHop(a) == Text.Trim(a)
    ensures FirstHop(a + "," + rest) == Text.Trim(a)
  {
    Text.SplitNoSep(a, ',');
    Text.SplitCons(a, ',', rest);
  }

  /** Without a usable header the socket address is used, or "" when there is none. */
  lemma FallsBackToAddress(h: Handshake)
    requires h.forwardedFor.None? || h.forwardedFor.value == ""
    ensures GetUserIP(h) == (if h.address.Some? then h.address.value else "")
  {
  }
}

=== FILE: router.dfy ===
/** The inbound message dispatcher: a client message is split on ':' and
    its first field chooses one of three commands. */
module Router {
  import opened Wrappers
  import Text

  /** What a message asks for. A field the message does not have is `None`
      (JavaScript `undefined`); the handler receives it as such. */
  datatype Command =
    | PlaceBet(roundRef: Option<string>, betList: Option<string>)
    | JoinRoom(roomId: Option<string>)
    | LeaveRoom(roomId: Option<string>)

  /** Parses one message; `None` means no handler runs. */
  function Route(data: string): (cmd: Option<Command>)
    ensures cmd.Some? <==> Text.Split(data, ':')[0] in {"BT", "JN", "LV"}
    ensures cmd.Some? && cmd.value.PlaceBet? ==>
              Text.Split(data, ':')[0] == "BT"
              && cmd.value.roundRef == Text.Field(Text.Split(data, ':'), 1)
              && cmd.value.betList == Text.Field(Text.Split(data, ':'), 2)
    ensures cmd.Some? && !cmd.value.PlaceBet? ==>
              cmd.value.roomId == Text.Field(Text.Split(data, ':'), 1)
    ensures (cmd.Some? && cmd.value.PlaceBet?) <==> Text.Split(data, ':')[0] == "BT"
    ensures (cmd.Some? && cmd.value.JoinRoom?) <==> Text.Split(data, ':')[0] == "JN"
    ensures (cmd.Some? && cmd.value.LeaveRoom?) <==> Text.Split(data, ':')[0] == "LV"
  {
    var event := Text.Split(data, ':');
    if event[0] == "BT" then Some(PlaceBet(Text.Field(event, 1), Text.Field(event, 2)))
    else if event[0] == "JN" then Some(JoinRoom(Text.Field(event, 1)))
    else if event[0] == "LV" then Some(LeaveRoom(Text.Field(event, 1)))
    else None
  }

  /** The message a client sends for a command whose fields are all present. */
  function Render(cmd: Command): string
    requires cmd.PlaceBet? ==> cmd.roundRef.Some? && cmd.betList.Some?
    requires !cmd.PlaceBet? ==> cmd.roomId.Some?
  {
    match cmd
    case PlaceBet(r, b) => Text.Join(["BT", r.value, b.value], ':')
    case JoinRoom(room) => Text.Join(["JN", room.value], ':')
    case LeaveRoom(room) => Text.Join(["LV", room.value], ':')
  }

  predicate ColonFree(cmd: Command) {
    match cmd
    case PlaceBet(r, b) => r.Some? && b.Some? && ':' !in r.value && ':' !in b.value
    case JoinRoom(room) => room.Some? && ':' !in room.value
    case LeaveRoom(room) => room.Some? && ':' !in room.value
  }

  /** Every command whose fields carry no ':' is routed back to itself. */
  lemma RouteRender(cmd: Command)
    requires ColonFree(cmd)
    ensures Route(Render(cmd)) == Some(cmd)
  {
    match cmd
    case PlaceBet(r, b) =>
      Text.SplitJoin(["BT", r.value, b.value], ':');
    case JoinRoom(room) =>
      Text.SplitJoin(["JN", room.value], ':');
    case LeaveRoom(room) =>
      Text.SplitJoin(["LV", room.value], ':');
  }

  /** Extra trailing fields are ignored: only fields 1 and 2 reach the bet handler. */
  lemma ExtraFieldsIgnored(r: string, b: string, extra: string)
    requires ':' !in r && ':' !in b
    ensures Route("BT:" + r + ":" + b + ":" + extra) == Some(PlaceBet(Some(r), Some(b)))
  {
    var msg := "BT:" + r + ":" + b + ":" + extra;
    assert msg == "BT" + [':'] + (r + [':'] + (b + [':'] + extra));
    Text.SplitCons("BT", ':', r + [':'] + (b + [':'] + extra));
    Text.SplitCons(r, ':', b + [':'] + extra);
    Text.SplitCons(b, ':', extra);
  }

  /** A bare `"BT"` reaches the bet handler with both fields missing. */
  lemma BareBetMessage()
    ensures Route("BT") == Some(PlaceBet(None, None))
  {
    Text.SplitNoSep("BT", ':');
  }
}

=== FILE: settlement.dfy ===
/** Round settlement: every bet stored for a finished round is paid against
    the round's outcome, winners are credited (ledger request, cached
    balance, notices), losers are told what they lost, and the round's
    bet book is emptied. */
module Settlement {
  import opened Wrappers
  import Text
  import Outcome
  import opened Bets

  /** The persisted summary of one settled bet. */
  datatype SettlementRecord = SettlementRecord(
    betId: string, totalBetAmount: int, userBets: seq<Outcome.BetResult>,
    result: Outcome.GameRoundResult, totalMaxMult: int, winAmount: int)

  /** A credit request sent to the ledger for a winning bet. Its reply only
      selects a log line, so it is not part of the model. */
  datatype CreditRequest = CreditRequest(
    userId: Option<string>, operatorId: Option<string>, winningAmount: int,
    roundId: string, gameId: string, txnId: Option<string>, ip: string, token: string)

  /** Messages addressed to one player's connection. */
  datatype Notice =
    | BalanceInfo(socketId: string, balance: int)
    | WinNotice(socketId: string, winAmount: int, lobbyId: string)
    | LossNotice(socketId: string, lossAmount: int, lobbyId: string)

  type Cache = map<string, PlayerDetails>

  /** What settling a round produces. */
  datatype Report = Report(
    book: Book, cache: Cache, records: seq<SettlementRecord>,
    credits: seq<CreditRequest>, notices: seq<Notice>)

  // ---------------------------------------------------------------------
  // Reference definitions

  /** What one wager earns against `winner`: the capped multiple of its
      amount when its chip won, nothing otherwise. */
  function WagerPayout(cap: int, w: BetData, winner: int): int {
    if w.chip == winner then Outcome.Min(w.betAmount * Outcome.Multiplier(w.chip), cap) else 0
  }

  /** What a batch earns: the sum of its wagers' payouts. */
  function Payout(cap: int, ws: seq<BetData>, winner: int): int {
    if |ws| == 0 then 0 else WagerPayout(cap, ws[0], winner) + Payout(cap, ws[1..], winner)
  }

  /** How many wagers of a batch are on `chip`. */
  function CountChip(ws: seq<BetData>, chip: int): nat {
    if |ws| == 0 then 0 else (if ws[0].chip == chip then 1 else 0) + CountChip(ws[1..], chip)
  }

  lemma {:induction false} PayoutSnoc(cap: int, ws: seq<BetData>, winner: int)
    requires |ws| > 0
    ensures Payout(cap, ws, winner)
            == Payout(cap, ws[..|ws| - 1], winner) + WagerPayout(cap, ws[|ws| - 1], winner)
    decreases |ws|
  {
    if |ws| > 1 {
      PayoutSnoc(cap, ws[1..], winner);
      assert ws[1..][..|ws| - 2] == ws[..|ws| - 1][1..];
    }
  }

  lemma {:induction false} CountChipSnoc(ws: seq<BetData>, chip: int)
    requires |ws| > 0
    ensures CountChip(ws, chip)
            == CountChip(ws[..|ws| - 1], chip) + (if ws[|ws| - 1].chip == chip then 1 else 0)
    decreases |ws|
  {
    if |ws| > 1 {
      CountChipSnoc(ws[1..], chip);
      assert ws[1..][..|ws| - 2] == ws[..|ws| - 1][1..];
    }
  }

  // ---------------------------------------------------------------------
  // One bet

  /** The running sums of the per-wager loop. */
  datatype Tally = Tally(totalBetAmount: int, finalAmount: int, totalMultiplier: int,
                         betResults: seq<Outcome.BetResult>)

  /** The per-wager loop of settlement, wager by wager in order: every wager
      adds its amount to the stake; one whose multiplier is positive adds
      its multiplier and its capped win. */
  function TallyWagers(cap: int, winner: int, ws: seq<BetData>): (t: Tally)
    ensures t.totalBetAmount == Total(ws)
    ensures t.finalAmount == Payout(cap, ws, winner)
    ensures t.totalMultiplier == CountChip(ws, winner) * Outcome.Multiplier(winner)
    ensures |t.betResults| == |ws|
    ensures forall i :: 0 <= i < |ws| ==>
              t.betResults[i] == Outcome.GetBetResult(cap, ws[i].betAmount, ws[i].chip, winner)
    decreases |ws|
  {
    if |ws| == 0 then Tally(0, 0, 0, [])
    else
      var prefix := ws[..|ws| - 1];
      var w := ws[|ws| - 1];
      var before := TallyWagers(cap, winner, prefix);
      var r := Outcome.GetBetResult(cap, w.betAmount, w.chip, winner);
      TotalSnoc(ws);
      PayoutSnoc(cap, ws, winner);
      CountChipSnoc(ws, winner);
      if r.mult > 0 then
        Tally(before.totalBetAmount + w.betAmount, before.finalAmount + r.winAmount,
              before.totalMultiplier + r.mult, before.betResults + [r])
      else
        Tally(before.totalBetAmount + w.betAmount, before.finalAmount,
              before.totalMultiplier, before.betResults + [r])
  }

  function TallyOf(cfg: Config, result: Outcome.GameRoundResult, bet: BetObject): Tally {
    TallyWagers(cfg.maxCashoutAmount, result.winner, bet.userBets)
  }

  /** The persisted record of one bet; negative sums are recorded as 0. */
  function RecordOf(cfg: Config, result: Outcome.GameRoundResult, bet: BetObject): (rec: SettlementRecord)
    ensures rec.betId == bet.betId && rec.result == result
    ensures rec.totalBetAmount == Total(bet.userBets)
    ensures rec.winAmount == (if Payout(cfg.maxCashoutAmount, bet.userBets, result.winner) > 0
                              then Payout(cfg.maxCashoutAmount, bet.userBets, result.winner) else 0)
    ensures |rec.userBets| == |bet.userBets|
    ensures forall i :: 0 <= i < |bet.userBets| ==>
              rec.userBets[i] == Outcome.GetBetResult(cfg.maxCashoutAmount, bet.userBets[i].betAmount,
                                                      bet.userBets[i].chip, result.winner)
    ensures rec.totalMaxMult == CountChip(bet.userBets, result.winner) * Outcome.Multiplier(result.winner)
  {
    var t := TallyOf(cfg, result, bet);
    SettlementRecord(bet.betId, t.totalBetAmount, t.betResults, result,
                     if t.totalMultiplier > 0 then t.totalMultiplier else 0,
                     if t.finalAmount > 0 then t.finalAmount else 0)
  }

  /** What a bet wins, when positive; 0 for a losing bet. */
  function WinOf(cfg: Config, result: Outcome.GameRoundResult, bet: BetObject): nat {
    var p := Payout(cfg.maxCashoutAmount, bet.userBets, result.winner);
    if p > 0 then p else 0
  }

  /** The state threaded through the bets of a round. */
  datatype Fold = Fold(cache: Cache, records: seq<SettlementRecord>,
                       credits: seq<CreditRequest>, notices: seq<Notice>)

  /** The credit request for a winning bet: the user and operator read back
      out of the bet id, what the bet won, and the round, game, debit
      transaction, address and token the bet was placed with. */
  function CreditFor(cfg: Config, result: Outcome.GameRoundResult, roundId: string,
                     bet: BetObject): CreditRequest {
    CreditRequest(ParseBetId(bet.betId).0, ParseBetId(bet.betId).1, WinOf(cfg, result, bet),
                  roundId, bet.gameId, bet.txnId, bet.ip, bet.token)
  }

  /** The bet's player still has a session whose room is the round's lobby
      slot (the comparison is between possibly-missing values). */
  predicate Watching(cache: Cache, bet: BetObject, roundId: string) {
    (if bet.socketId in cache then cache[bet.socketId].roomId else None) == LobbyNo(roundId)
  }

  /** Settles one bet: a winner gets a credit request, a win notice (when
      it still watches this lobby), and its cached balance raised and sent
      after the win notice (when it still has a session); a loser gets a
      loss notice for its whole stake (when it still watches this lobby). */
  function SettleOne(cfg: Config, result: Outcome.GameRoundResult, roundId: string,
                     cache: Cache, bet: BetObject): (f: Fold)
    ensures f.records == [RecordOf(cfg, result, bet)]
    ensures f.cache.Keys == cache.Keys
    ensures forall s :: s in cache && s != bet.socketId ==> f.cache[s] == cache[s]
    ensures bet.socketId in cache ==>
              f.cache[bet.socketId] ==
                cache[bet.socketId].(balance := cache[bet.socketId].balance + WinOf(cfg, result, bet))
    ensures |f.credits| == (if WinOf(cfg, result, bet) > 0 then 1 else 0)
    ensures forall c :: c in f.credits ==>
              && c.winningAmount == WinOf(cfg, result, bet) > 0
              && (c.userId, c.operatorId) == ParseBetId(bet.betId)
              && c.txnId == bet.txnId
              && c.roundId == roundId && c.gameId == bet.gameId
              && c.ip == bet.ip && c.token == bet.token
    ensures WinOf(cfg, result, bet) == 0 ==>
              f.cache == cache
              && f.notices == (if Watching(cache, bet, roundId)
                               then [LossNotice(bet.socketId, Total(bet.userBets), bet.lobbyId)] else [])
    ensures WinOf(cfg, result, bet) > 0 ==>
              (WinNotice(bet.socketId, WinOf(cfg, result, bet), bet.lobbyId) in f.notices
               <==> Watching(cache, bet, roundId))
    ensures WinOf(cfg, result, bet) > 0 ==>
              f.notices == (if Watching(cache, bet, roundId)
                            then [WinNotice(bet.socketId, WinOf(cfg, result, bet), bet.lobbyId)] else [])
                           + (if bet.socketId in cache
                              then [BalanceInfo(bet.socketId, f.cache[bet.socketId].balance)] else [])
  {
    var lobbyNo := LobbyNo(roundId);
    var (userId, operatorId) := ParseBetId(bet.betId);
    var t := TallyOf(cfg, result, bet);
    var rec := RecordOf(cfg, result, bet);
    var cached := if bet.socketId in cache then Some(cache[bet.socketId]) else None;
    var watching := (if cached.Some? then cached.value.roomId else None) == lobbyNo;
    if t.finalAmount > 0 then
      var credit := CreditRequest(userId, operatorId, t.finalAmount, roundId, bet.gameId,
                                  bet.txnId, bet.ip, bet.token);
      var cache' := if cached.Some? then cache[bet.socketId := cached.value.(balance := cached.value.balance + t.finalAmount)]
                    else cache;
      var info := if cached.Some? then [BalanceInfo(bet.socketId, cached.value.balance + t.finalAmount)] else [];
      var win := if watching then [WinNotice(bet.socketId, t.finalAmount, bet.lobbyId)] else [];
      Fold(cache', [rec], [credit], win + info)
    else
      var loss := if watching then [LossNotice(bet.socketId, t.totalBetAmount, bet.lobbyId)] else [];
      Fold(cache, [rec], [], loss)
  }

  /** The sum a socket is credited over a list of bets. */
  function WinsFor(cfg: Config, result: Outcome.GameRoundResult, bets: seq<BetObject>, socketId: string): nat {
    if |bets| == 0 then 0
    else (if bets[0].socketId == socketId then WinOf(cfg, result, bets[0]) else 0)
         + WinsFor(cfg, result, bets[1..], socketId)
  }

  /** The bets of a list that win something. */
  function Winners(cfg: Config, result: Outcome.GameRoundResult, bets: seq<BetObject>): seq<BetObject> {
    if |bets| == 0 then []
    else (if WinOf(cfg, result, bets[0]) > 0 then [bets[0]] else []) + Winners(cfg, result, bets[1..])
  }

  /** The settlement notices of a list, without the balance updates. */
  function Announcements(ns: seq<Notice>): seq<Notice> {
    if |ns| == 0 then []
    else (if ns[0].BalanceInfo? then [] else [ns[0]]) + Announcements(ns[1..])
  }

  /** The settlement notice one bet's player gets, if it watches the lobby:
      the win when the bet won something, the whole stake otherwise. */
  function AnnouncementOf(cfg: Config, result: Outcome.GameRoundResult, roundId: string,
                          cache: Cache, bet: BetObject): seq<Notice> {
    if !Watching(cache, bet, roundId) then []
    else if WinOf(cfg, result, bet) > 0 then [WinNotice(bet.socketId, WinOf(cfg, result, bet), bet.lobbyId)]
    else [LossNotice(bet.socketId, Total(bet.userBets), bet.lobbyId)]
  }

  /** The settlement notices of a list of bets, in order, judged against
      the sessions as they stand before settlement. */
  function AnnouncementsFor(cfg: Config, result: Outcome.GameRoundResult, roundId: string,
                            cache: Cache, bets: seq<BetObject>): seq<Notice> {
    if |bets| == 0 then []
    else AnnouncementOf(cfg, result, roundId, cache, bets[0])
         + AnnouncementsFor(cfg, result, roundId, cache, bets[1..])
  }

  /** Settles the bets of a round in order. Per bet: one record; per
      winning bet: one credit; every cached balance rises by exactly what
      its socket's bets won. */
  function SettleAll(cfg: Config, result: Outcome.GameRoundResult, roundId: string,
                     cache: Cache, bets: seq<BetObject>): (f: Fold)
    ensures |f.records| == |bets|
    ensures forall i :: 0 <= i < |bets| ==> f.records[i] == RecordOf(cfg, result, bets[i])
    ensures f.cache.Keys == cache.Keys
    decreases |bets|
  {
    if |bets| == 0 then Fold(cache, [], [], [])
    else
      var first := SettleOne(cfg, result, roundId, cache, bets[0]);
      var rest := SettleAll(cfg, result, roundId, first.cache, bets[1..]);
      Fold(rest.cache, first.records + rest.records, first.credits + rest.credits,
           first.notices + rest.notices)
  }

  /** Settles the round `roundId` of `book` against `result`. A missing or
      empty entry is left alone and nothing is produced; otherwise every bet
      is settled and the entry is emptied. */
  function SettleBet(cfg: Config, book: Book, roundId: string, result: Outcome.GameRoundResult,
                     cache: Cache): (r: Report)
    ensures !(roundId in book && |book[roundId]| > 0) ==> r == Report(book, cache, [], [], [])
    ensures roundId in book && |book[roundId]| > 0 ==>
              && r.book == book[roundId := []]
              && |r.records| == |book[roundId]|
              && (forall i :: 0 <= i < |book[roundId]| ==> r.records[i] == RecordOf(cfg, result, book[roundId][i]))
              && (forall i :: 0 <= i < |book[roundId]| ==>
                    && r.records[i].betId == book[roundId][i].betId
                    && r.records[i].totalBetAmount == Total(book[roundId][i].userBets)
                    && r.records[i].winAmount == WinOf(cfg, result, book[roundId][i]))
    ensures roundId in book && |book[roundId]| > 0 ==>
              && |r.credits| == |Winners(cfg, result, book[roundId])|
              && (forall i :: 0 <= i < |r.credits| ==>
                    && r.credits[i] == CreditFor(cfg, result, roundId, Winners(cfg, result, book[roundId])[i])
                    && r.credits[i].winningAmount > 0)
              && Announcements(r.notices) == AnnouncementsFor(cfg, result, roundId, cache, book[roundId])
    ensures r.book.Keys == book.Keys
    ensures forall k :: k in book && k != roundId ==> r.book[k] == book[k]
    ensures r.cache.Keys == cache.Keys
  {
    if roundId in book && |book[roundId]| > 0 then
      var f := SettleAll(cfg, result, roundId, cache, book[roundId]);
      SettleAllCreditRequests(cfg, result, roundId, cache, book[roundId]);
      SettleAllAnnouncements(cfg, result, roundId, cache, book[roundId]);
      Report(book[roundId := []], f.cache, f.records, f.credits, f.notices)
    else
      Report(book, cache, [], [], [])
  }

  // ---------------------------------------------------------------------
  // Properties

  /** Every cached balance rises by exactly what its socket's bets won;
      nothing else in a session changes. */
  lemma {:induction false} SettleAllCredits(cfg: Config, result: Outcome.GameRoundResult, roundId: string,
                                            cache: Cache, bets: seq<BetObject>)
    ensures var f := SettleAll(cfg, result, roundId, cache, bets);
            forall s :: s in cache ==>
              f.cache[s] == cache[s].(balance := cache[s].balance + WinsFor(cfg, result, bets, s))
    decreases |bets|
  {
    if |bets| > 0 {
      var first := SettleOne(cfg, result, roundId, cache, bets[0]);
      SettleAllCredits(cfg, result, roundId, first.cache, bets[1..]);
    }
  }

  /** One ledger credit per winning bet, in order, each for what that bet won. */
  lemma {:induction false} SettleAllCreditRequests(cfg: Config, result: Outcome.GameRoundResult,
                                                   roundId: string, cache: Cache, bets: seq<BetObject>)
    ensures var f := SettleAll(cfg, result, roundId, cache, bets);
            && |f.credits| == |Winners(cfg, result, bets)|
            && forall i :: 0 <= i < |f.credits| ==>
                 && f.credits[i] == CreditFor(cfg, result, roundId, Winners(cfg, result, bets)[i])
                 && f.credits[i].winningAmount == WinOf(cfg, result, Winners(cfg, result, bets)[i]) > 0
    decreases |bets|
  {
    if |bets| > 0 {
      var first := SettleOne(cfg, result, roundId, cache, bets[0]);
      SettleAllCreditRequests(cfg, result, roundId, first.cache, bets[1..]);
      var f := SettleAll(cfg, result, roundId, cache, bets);
      var rest := SettleAll(cfg, result, roundId, first.cache, bets[1..]);
      var w := Winners(cfg, result, bets);
      assert f.credits == first.credits + rest.credits;
      assert w == (if WinOf(cfg, result, bets[0]) > 0 then [bets[0]] else []) + Winners(cfg, result, bets[1..]);
    }
  }

  lemma {:induction false} AnnouncementsAppend(a: seq<Notice>, b: seq<Notice>)
    ensures Announcements(a + b) == Announcements(a) + Announcements(b)
    decreases |a|
  {
    if |a| > 0 {
      AnnouncementsAppend(a[1..], b);
      assert (a + b)[0] == a[0] && (a + b)[1..] == a[1..] + b;
    } else {
      assert a + b == b;
    }
  }

  /** Who watches which lobby depends only on the sessions' rooms. */
  lemma {:induction false} AnnouncementsForSameRooms(cfg: Config, result: Outcome.GameRoundResult,
                                                     roundId: string, c1: Cache, c2: Cache,
                                                     bets: seq<BetObject>)
    requires c1.Keys == c2.Keys
    requires forall s :: s in c1 ==> c1[s].roomId == c2[s].roomId
    ensures AnnouncementsFor(cfg, result, roundId, c1, bets) == AnnouncementsFor(cfg, result, roundId, c2, bets)
    decreases |bets|
  {
    if |bets| > 0 {
      AnnouncementsForSameRooms(cfg, result, roundId, c1, c2, bets[1..]);
      assert Watching(c1, bets[0], roundId) == Watching(c2, bets[0], roundId);
    }
  }

  /** One bet's notices, without the balance update, are its announcement;
      settling it changes no session's room. */
  lemma SettleOneAnnouncement(cfg: Config, result: Outcome.GameRoundResult, roundId: string,
                              cache: Cache, bet: BetObject)
    ensures var f := SettleOne(cfg, result, roundId, cache, bet);
            && Announcements(f.notices) == AnnouncementOf(cfg, result, roundId, cache, bet)
            && f.cache.Keys == cache.Keys
            && forall s :: s in cache ==> f.cache[s].roomId == cache[s].roomId
  {
    var f := SettleOne(cfg, result, roundId, cache, bet);
    var said := AnnouncementOf(cfg, result, roundId, cache, bet);
    assert Announcements(said) == said;
    if WinOf(cfg, result, bet) > 0 {
      var info: seq<Notice> := if bet.socketId in cache
                               then [BalanceInfo(bet.socketId, f.cache[bet.socketId].balance)] else [];
      assert f.notices == said + info;
      AnnouncementsAppend(said, info);
      assert Announcements(info) == [];
    }
  }

  /** Besides the balance updates, settlement sends each watching player
      of each bet, in order, its win or its loss. */
  lemma {:induction false} SettleAllAnnouncements(cfg: Config, result: Outcome.GameRoundResult,
                                                  roundId: string, cache: Cache, bets: seq<BetObject>)
    ensures Announcements(SettleAll(cfg, result, roundId, cache, bets).notices)
            == AnnouncementsFor(cfg, result, roundId, cache, bets)
    decreases |bets|
  {
    if |bets| > 0 {
      var first := SettleOne(cfg, result, roundId, cache, bets[0]);
      var rest := SettleAll(cfg, result, roundId, first.cache, bets[1..]);
      SettleOneAnnouncement(cfg, result, roundId, cache, bets[0]);
      SettleAllAnnouncements(cfg, result, roundId, first.cache, bets[1..]);
      AnnouncementsForSameRooms(cfg, result, roundId, first.cache, cache, bets[1..]);
      AnnouncementsAppend(first.notices, rest.notices);
      assert SettleAll(cfg, result, roundId, cache, bets).notices == first.notices + rest.notices;
    }
  }

  /** Settling a round raises every cached balance by what that player won
      in the round; balances never fall. */
  lemma SettleBetRaisesBalances(cfg: Config, book: Book, roundId: string,
                                result: Outcome.GameRoundResult, cache: Cache)
    requires roundId in book
    ensures var r := SettleBet(cfg, book, roundId, result, cache);
            forall s :: s in cache ==>
              && r.cache[s].balance == cache[s].balance + WinsFor(cfg, result, book[roundId], s)
              && r.cache[s].balance >= cache[s].balance
  {
    if |book[roundId]| > 0 {
      SettleAllCredits(cfg, result, roundId, cache, book[roundId]);
    } else {
      assert forall s :: WinsFor(cfg, result, book[roundId], s) == 0;
    }
  }

  /** Settling the same round twice: the second call finds an empty entry
      and produces nothing. */
  lemma SettleTwiceIsNoOp(cfg: Config, book: Book, roundId: string,
                          result: Outcome.GameRoundResult, cache: Cache, cache2: Cache)
    ensures var first := SettleBet(cfg, book, roundId, result, cache);
            SettleBet(cfg, first.book, roundId, result, cache2) == Report(first.book, cache2, [], [], [])
  {
  }

  /** Only a batch containing a wager on the winning chip can win. */
  lemma {:induction false} PayoutNeedsWinningChip(cap: int, ws: seq<BetData>, winner: int)
    requires CountChip(ws, winner) == 0
    ensures Payout(cap, ws, winner) == 0
    decreases |ws|
  {
    if |ws| > 0 {
      PayoutNeedsWinningChip(cap, ws[1..], winner);
    }
  }

  /** With positive amounts and a positive cap, a batch wins exactly when
      one of its wagers is on the winning chip. */
  lemma {:induction false} PayoutPositiveIff(cap: int, ws: seq<BetData>, winner: int)
    requires cap > 0
    requires forall i :: 0 <= i < |ws| ==> ws[i].betAmount > 0
    ensures Payout(cap, ws, winner) > 0 <==> CountChip(ws, winner) > 0
    ensures Payout(cap, ws, winner) >= 0
    decreases |ws|
  {
    if |ws| > 0 {
      PayoutPositiveIff(cap, ws[1..], winner);
    }
  }

  /** The cap binds per wager, not per bet: a batch pays at most the cap
      times the number of its winning wagers. */
  lemma {:induction false} PayoutBoundedPerWager(cap: int, ws: seq<BetData>, winner: int)
    requires cap >= 0
    ensures Payout(cap, ws, winner) <= CountChip(ws, winner) * cap
    decreases |ws|
  {
    if |ws| > 0 {
      var c := if ws[0].chip == winner then 1 else 0;
      var rest := CountChip(ws[1..], winner);
      PayoutBoundedPerWager(cap, ws[1..], winner);
      assert Payout(cap, ws, winner) == WagerPayout(cap, ws[0], winner) + Payout(cap, ws[1..], winner);
      assert CountChip(ws, winner) == c + rest;
      assert WagerPayout(cap, ws[0], winner) <= c * cap;
      assert (c + rest) * cap == c * cap + rest * cap;
    }
  }

  /** Settlement only ever credits what the bets staked at most
      `Multiplier` times: no bet wins more than five times its stake. */
  lemma {:induction false} PayoutAtMostFiveTimesStake(cap: int, ws: seq<BetData>, winner: int)
    requires forall i :: 0 <= i < |ws| ==> ws[i].betAmount > 0
    ensures Payout(cap, ws, winner) <= 5 * Total(ws)
    decreases |ws|
  {
    if |ws| > 0 {
      PayoutAtMostFiveTimesStake(cap, ws[1..], winner);
    }
  }

  /** The settled stake of every stored bet equals what its placement
      debited. */
  lemma SettledStakeMatchesDebit(cfg: Config, lobbies: map<string, LobbyData>, book: Book,
                                 player: Option<PlayerDetails>, roundRef: Option<string>,
                                 betList: Option<seq<BetData>>, handshake: Outcome.Handshake,
                                 debit: DebitReply, result: Outcome.GameRoundResult)
    requires PlaceBet(cfg, lobbies, book, player, roundRef, betList, handshake, debit).Placed?
    ensures var p := PlaceBet(cfg, lobbies, book, player, roundRef, betList, handshake, debit);
            RecordOf(cfg, result, p.bet).totalBetAmount == player.value.balance - p.player.balance
  {
  }

  /** A round in which 3 and 4 are thrown, as the code labels the dice:
      seven is category 3, so a 10 on chip 2 wins nothing and a 10 on
      chip 1 loses its 10. */
  lemma SevenRoundAsWritten(cap: int)
    ensures Outcome.GetResult(3, 4).winner == 3
    ensures Payout(cap, [BetData(10, 2)], 3) == 0
    ensures Payout(cap, [BetData(10, 1)], 3) == 0 && Total([BetData(10, 1)]) == 10
  {
  }

  /** The same round with seven labelled 2: the 10 on chip 2 is paid 50,
      capped by the cashout limit. */
  lemma SevenRoundIntended(cap: int)
    ensures Outcome.GetResultIntended(3, 4).winner == 2
    ensures Payout(cap, [BetData(10, 2)], 2) == Outcome.Min(50, cap)
  {
  }
}

=== FILE: text.dfy ===
/** The JavaScript string operations the game relies on: `split` on one
    character, the inverse `join`, `trim`, decimal rendering of a whole
    number (template literals) and decimal parsing of digit text. */
module Text {
  import opened Wrappers

  /** `s.split(sep)` for a one-character separator: the pieces between
      separators, in order; the empty string splits into one empty piece. */
  function Split(s: string, sep: char): (parts: seq<string>)
    ensures |parts| >= 1
    ensures forall i :: 0 <= i < |parts| ==> sep !in parts[i]
    ensures |parts| == 1 + Count(s, sep)
    decreases |s|
  {
    if |s| == 0 then [""]
    else
      var rest := Split(s[1..], sep);
      if s[0] == sep then [""] + rest
      else [[s[0]] + rest[0]] + rest[1..]
  }

  /** Number of occurrences of `c` in `s`. */
  function Count(s: string, c: char): nat {
    if |s| == 0 then 0 else (if s[0] == c then 1 else 0) + Count(s[1..], c)
  }

  /** `parts.join(sep)`. */
  function Join(parts: seq<string>, sep: char): string
    requires |parts| >= 1
  {
    if |parts| == 1 then parts[0] else parts[0] + [sep] + Join(parts[1..], sep)
  }

  /** Destructuring `const [a, b] = xs`: slot `i`, or `undefined` past the end. */
  function Field(parts: seq<string>, i: nat): (r: Option<string>)
    ensures r.Some? <==> i < |parts|
    ensures r.Some? ==> r.value == parts[i]
  {
    if i < |parts| then Some(parts[i]) else None
  }

  /** Splitting then joining gives back the original text. */
  lemma {:induction false} JoinSplit(s: string, sep: char)
    ensures Join(Split(s, sep), sep) == s
    decreases |s|
  {
    if |s| > 0 {
      JoinSplit(s[1..], sep);
      var rest := Split(s[1..], sep);
      if s[0] == sep {
        assert Split(s, sep) == [""] + rest;
        assert ([""] + rest)[1..] == rest;
        assert s == [sep] + s[1..];
      } else {
        var parts := Split(s, sep);
        assert parts == [[s[0]] + rest[0]] + rest[1..];
        if |rest| == 1 {
          assert s == [s[0]] + s[1..];
        } else {
          assert parts[1..] == rest[1..];
          assert Join(rest, sep) == rest[0] + [sep] + Join(rest[1..], sep);
          assert s == [s[0]] + s[1..];
        }
      }
    }
  }

  /** A separator-free text splits into itself alone. */
  lemma {:induction false} SplitNoSep(a: string, sep: char)
    requires sep !in a
    ensures Split(a, sep) == [a]
    decreases |a|
  {
    if |a| > 0 {
      SplitNoSep(a[1..], sep);
      assert [a[0]] + a[1..] == a;
    }
  }

  /** A separator-free head followed by the separator splits off as the first piece. */
  lemma {:induction false} SplitCons(a: string, sep: char, b: string)
    requires sep !in a
    ensures Split(a + [sep] + b, sep) == [a] + Split(b, sep)
    decreases |a|
  {
    if |a| == 0 {
      assert a + [sep] + b == [sep] + b;
      assert ([sep] + b)[1..] == b;
    } else {
      var s := a + [sep] + b;
      assert s[1..] == a[1..] + [sep] + b;
      SplitCons(a[1..], sep, b);
      assert [a[0]] + a[1..] == a;
    }
  }

  /** The first piece is the text up to the first separator, or all of it. */
  lemma {:induction false} SplitHead(s: string, sep: char)
    ensures var h := Split(s, sep)[0];
            |h| <= |s| && h == s[..|h|] && (|h| < |s| ==> s[|h|] == sep)
    decreases |s|
  {
    if |s| > 0 && s[0] != sep {
      SplitHead(s[1..], sep);
      var rest := Split(s[1..], sep);
      assert Split(s, sep)[0] == [s[0]] + rest[0];
      assert s[..|rest[0]| + 1] == [s[0]] + s[1..][..|rest[0]|];
    }
  }

  /** Joining separator-free pieces and splitting again recovers the pieces. */
  lemma {:induction false} SplitJoin(parts: seq<string>, sep: char)
    requires |parts| >= 1
    requires forall i :: 0 <= i < |parts| ==> sep !in parts[i]
    ensures Split(Join(parts, sep), sep) == parts
    decreases |parts|
  {
    if |parts| == 1 {
      SplitNoSep(parts[0], sep);
    } else {
      SplitJoin(parts[1..], sep);
      SplitCons(parts[0], sep, Join(parts[1..], sep));
      assert [parts[0]] + parts[1..] == parts;
    }
  }

  // ---------------------------------------------------------------------
  // trim

  /** The characters `String.prototype.trim` strips: the ASCII white space
      and line terminators, no-break space, byte-order mark, the Unicode
      space separators and the two Unicode line/paragraph separators. */
  predicate IsWhitespace(c: char) {
    || '\t' <= c <= '\r' || c == ' ' || c == '\U{00A0}' || c == '\U{1680}'
    || '\U{2000}' <= c <= '\U{200A}' || c == '\U{2028}' || c == '\U{2029}'
    || c == '\U{202F}' || c == '\U{205F}' || c == '\U{3000}' || c == '\U{FEFF}'
  }

  /** Drops leading white space: the result is a suffix of `s` and what was
      dropped is all white space. */
  function TrimStart(s: string): (r: string)
    ensures |r| <= |s| && r == s[|s| - |r|..]
    ensures forall k {:trigger IsWhitespace(s[k])} :: 0 <= k < |s| - |r| ==> IsWhitespace(s[k])
    ensures |r| == 0 || !IsWhitespace(r[0])
    decreases |s|
  {
    if |s| > 0 && IsWhitespace(s[0]) then TrimStart(s[1..]) else s
  }

  /** Drops trailing white space: the result is a prefix of `s` and what was
      dropped is all white space. */
  function TrimEnd(s: string): (r: string)
    ensures |r| <= |s| && r == s[..|r|]
    ensures forall k {:trigger IsWhitespace(s[k])} :: |r| <= k < |s| ==> IsWhitespace(s[k])
    ensures |r| == 0 || !IsWhitespace(r[|r| - 1])
    decreases |s|
  {
    if |s| > 0 && IsWhitespace(s[|s| - 1]) then TrimEnd(s[..|s| - 1]) else s
  }

  /** `s.trim()`: a contiguous slice of `s` with no white space at either end,
      everything outside the slice being white space. */
  function Trim(s: string): (r: string)
    ensures |r| == 0 || (!IsWhitespace(r[0]) && !IsWhitespace(r[|r| - 1]))
    ensures LeadingSpace(s) <= |s| - |r| && r == s[LeadingSpace(s)..LeadingSpace(s) + |r|]
    ensures forall k {:trigger IsWhitespace(s[k])} :: 0 <= k < LeadingSpace(s) ==> IsWhitespace(s[k])
    ensures forall k {:trigger IsWhitespace(s[k])} :: LeadingSpace(s) + |r| <= k < |s| ==> IsWhitespace(s[k])
  {
    TrimSlice(s, TrimStart(s), TrimEnd(TrimStart(s)));
    TrimEnd(TrimStart(s))
  }

  /** Trimming the front and then the back leaves a slice of `s`: `t` is the
      suffix after the leading white space, `r` a prefix of `t`. */
  lemma TrimSlice(s: string, t: string, r: string)
    requires |t| <= |s| && t == s[|s| - |t|..]
    requires |r| <= |t| && r == t[..|r|]
    requires forall k {:trigger IsWhitespace(t[k])} :: |r| <= k < |t| ==> IsWhitespace(t[k])
    ensures r == s[|s| - |t|..|s| - |t| + |r|]
    ensures forall k {:trigger IsWhitespace(s[k])} :: |s| - |t| + |r| <= k < |s| ==> IsWhitespace(s[k])
  {
    var i := |s| - |t|;
    forall k | i + |r| <= k < |s|
      ensures IsWhitespace(s[k])
    {
      assert s[k] == t[k - i];
    }
  }

  /** How many characters `trim` drops from the front of `s`. */
  function LeadingSpace(s: string): nat {
    |s| - |TrimStart(s)|
  }

  /** Text with no white space at either end is left alone by `trim`. */
  lemma TrimIdentity(s: string)
    requires |s| == 0 || (!IsWhitespace(s[0]) && !IsWhitespace(s[|s| - 1]))
    ensures Trim(s) == s
  {
  }

  // ---------------------------------------------------------------------
  // decimal numbers

  predicate IsDigit(c: char) {
    '0' <= c <= '9'
  }

  predicate AllDigits(s: string) {
    forall i :: 0 <= i < |s| ==> IsDigit(s[i])
  }

  function DigitChar(d: nat): (c: char)
    requires d < 10
    ensures IsDigit(c)
  {
    ['0', '1', '2', '3', '4', '5', '6', '7', '8', '9'][d]
  }

  function DigitValue(c: char): (d: nat)
    requires IsDigit(c)
    ensures d < 10
  {
    (c as int - '0' as int) as nat
  }

  /** `${n}` for a whole number: its shortest decimal digits. */
  function NatToString(n: nat): (s: string)
    ensures |s| >= 1 && AllDigits(s)
    ensures |s| > 1 ==> s[0] != '0'
  {
    if n < 10 then [DigitChar(n)] else NatToString(n / 10) + [DigitChar(n % 10)]
  }

  /** The value of a non-empty run of decimal digits. */
  function DigitsValue(s: string): nat
    requires AllDigits(s)
  {
    if |s| == 0 then 0 else DigitsValue(s[..|s| - 1]) * 10 + DigitValue(s[|s| - 1])
  }

  /** `Number(s)` restricted to digit text; anything else is not modelled. */
  function ParseNat(s: string): Option<nat> {
    if |s| > 0 && AllDigits(s) then Some(DigitsValue(s)) else None
  }

  /** Rendering a whole number and parsing it back gives the same number. */
  lemma {:induction false} ParseNatToString(n: nat)
    ensures ParseNat(NatToString(n)) == Some(n)
  {
    var s := NatToString(n);
    DigitRoundTrip(n % 10);
    if n >= 10 {
      ParseNatToString(n / 10);
      assert s[..|s| - 1] == NatToString(n / 10);
      assert DigitsValue(s) == DigitsValue(NatToString(n / 10)) * 10 + n % 10;
    } else {
      assert s == [DigitChar(n)] && s[..0] == [];
      assert DigitsValue(s) == DigitValue(DigitChar(n));
    }
  }

  lemma DigitRoundTrip(d: nat)
    requires d < 10
    ensures DigitValue(DigitChar(d)) == d
  {
  }

  /** Rendered numbers never contain a separator used by the wire formats. */
  lemma NatToStringNoSeparator(n: nat, c: char)
    requires !IsDigit(c)
    ensures c !in NatToString(n)
  {
  }
}

=== FILE: wrappers.dfy ===
/** Optional values: JavaScript's `undefined` for a missing array slot,
    map key or object field is modelled as `None`. */
module Wrappers {

  datatype Option<+T> = None | Some(value: T) {

    /** The value, or `default` when absent (JavaScript's `x || default`
        for a value that is never the empty string). */
    function GetOr(default: T): T {
      match this
      case Some(v) => v
      case None => default
    }
  }
}
